=== FILE: README.md ===
# Working-day classifier, modelled in Dafny

This project models the core of a location-history analyser. The analyser
reads a timeline of "visit" segments and labels every working day of a year
as **office**, **home**, **elsewhere** or **missing**. Elsewhere days also get
a distance breakdown into local, regional, national and international tiers.

There are two classifiers:

- `categorize_days` places each visit by its distance to a configured office
  and home.
- `categorize_days_simple` trusts the visit's own semantic tag (`WORK`,
  `INFERRED_HOME`, …).

Both rest on the calendar helpers in `utils.py`:

- the working-hours window test;
- the working-day test;
- year extraction;
- enumeration of a year's working days;
- the `"lat°, lng°"` splitter.

## Modules

- `wrappers.dfy`, module `Wrappers`: `Option`.
- `text.dfy`, module `Text`: the Python string built-ins the helpers rely on.
  These are `str.split` with a one-character separator, `str.replace(c, '')`,
  `str.strip()`, `int()` on text, and the `%d`/`%02d` formatting of small
  naturals.
- `calendar.dfy`, module `Calendar`: proleptic Gregorian dates, `toordinal`,
  `weekday`, `strftime('%A')`, the day-after step, and
  `get_all_working_days_in_year`. The enumeration is proved both as a set
  ("exactly the dates of the year with a wanted weekday name") and as a
  count ("261 weekdays in 2025").
- `utils.dfy`, module `Utils`: `is_within_working_hours`, `is_working_day`,
  `get_year_from_timestamp` and `parse_latlng`.
- `classifier.dfy`, module `Classifier`: one segment loop shared by both
  classifiers. A `Mode` selects how a visit is placed: by coordinates or by
  tags. The loop is followed by the aggregation into the four categories and
  the tier breakdown.
- `properties.dfy`, module `Properties`: what the classifiers promise, proved
  for all inputs.

### How the loop is modelled

The loop is a left fold (`Pass`) of a per-segment step over the timeline.
`Observe` is the chain of `continue`s up to the point where a day counts as
having data. `Locate` is the part that places a working-hours visit.

`PassObserved` and `PassNearest` give each accumulator an independent
reference meaning: "the days some segment marks" and "the least distance
recorded for the day". Most later properties are proved from those
meanings; a few small ones (`SkippedSegment`, `LoneNearest`) unfold the fold
directly.

Days are keyed by `Date`. Python keys them by the `%Y-%m-%d` text of the same
date. That formatting is one-to-one on valid dates, so the sets match element
for element.

### Behaviour worth knowing

- An elsewhere day need not have a recorded minimum distance. Take a day
  whose working-hours visits all have an empty or unreadable `latLng`.
  Those visits still make the day elsewhere in the coordinate classifier,
  yet none of them records a distance, so the day lands in no tier of the
  breakdown. `Properties.ElsewhereWithoutTier` proves this for a day with
  one such visit.
- The two classifiers use different base sets for elsewhere and missing.
  - The coordinate classifier uses days with a working-hours visit.
  - The tag classifier uses days with any working-day visit.
  
  Both are kept, as the code has them, and `Properties.OutsideHoursDiverges`
  exhibits a day that the two classify differently.
- `get_all_working_days_in_year(9999)` raises `OverflowError`, because the
  loop steps past 9999-12-31. Years outside 1..9999 make `date()` raise.
  All three cases are modelled as `None`, and so is the classifier that
  calls the function.

### Where the result depends on the configuration

- A `calendar_year` of 0 turns the year filter off, because the code tests
  `if calendar_year:`. The model's `Config.HasYear` follows that.
- Segments are compared by the year written in their start time. No time
  zone conversion is done, because `fromisoformat` keeps the wall-clock time
  as written.

## Model

| member | source | states |
|---|---|---|
| Text.JoinSplit | utils.py:26 | gluing the pieces of `split(sep)` back with `sep` gives the original string |
| Text.SplitCount | utils.py:40 | `split(sep)` yields exactly one more piece than there are separators |
| Text.SplitAround | utils.py:40 | splitting `a + sep + b` gives the pieces of `a` followed by the pieces of `b` |
| Text.SplitJoin | utils.py:26 | `split` undoes joining when no piece holds the separator |
| Text.RemoveAll | utils.py:26 | `replace('°', '')` leaves no degree sign and keeps every other character with its multiplicity |
| Text.RemoveAllAppend | utils.py:26 | the replacement works piecewise over a concatenation |
| Text.Strip | utils.py:27-28 | `strip()` returns an infix with no whitespace at either end, and everything dropped is whitespace |
| Text.StripUnpadded | utils.py:27-28 | text without surrounding whitespace is left unchanged by `strip()` |
| Text.IntWhitespace | utils.py:41-42 | `int()` skips ASCII blanks around its digits, but not the separator U+001C, which `strip()` does drop |
| Text.ParseShowNat | utils.py:41-42 | `int()` reads back any natural written in decimal, within Python's digit limit |
| Text.ParsePad2 | utils.py:44-45 | `int()` reads back a two-digit zero-padded minute |
| Calendar.NextDay | utils.py:82 | `+ timedelta(days=1)` gives the next valid date, which follows the current one; it fails exactly at 9999-12-31 |
| Calendar.NextDayImmediate | utils.py:82 | no valid date lies strictly between a date and the day after it |
| Calendar.NextDayOrdinal | utils.py:82 | the day after has the next ordinal |
| Calendar.NextDayWeekday | utils.py:80-82 | the weekday of the day after is the next weekday, Sunday wrapping to Monday |
| Calendar.Walk | utils.py:79-82 | the loop from a date to year end collects exactly the remaining dates of the year whose weekday name is wanted, and fails only in year 9999 |
| Calendar.WorkingDaysInYear | utils.py:71-84 | the result holds exactly the dates of the year whose weekday name is in `days_of_week`; it fails outside years 1..9998, and it is empty when no day is wanted |
| Calendar.WalkSize | utils.py:79-82 | the loop collects as many dates as there are wanted weekdays among the days left in the year |
| Calendar.WorkingDaysInYearSize | utils.py:71-84 | a year has as many working days as there are wanted weekdays in its 365 or 366 days counted from its first weekday, and at most 366 |
| Calendar.WorkingDays2025 | utils.py:71-84 | Monday to Friday in 2025 gives 261 working days |
| Utils.TimeLeqMicros | utils.py:47 | Python's field-by-field comparison of times orders them as instants of the day |
| Utils.ParseClock | utils.py:41-45 | an `H:MM` end of the window is accepted only as a valid time with zero seconds |
| Utils.ParseWindow | utils.py:40-45 | an accepted window has two valid ends |
| Utils.IsWithinWorkingHours | utils.py:34-49 | true only for a decodable timestamp and a well-formed window; against any window `ParseWindow` accepts (`9:00-18:00`, `09:00-17:30`) it is exactly start ≤ time of day ≤ end in microseconds since midnight, both ends included |
| Utils.ParseFormatClock | utils.py:41-45 | a written clock time reads back as itself when hour ≤ 23 and minute ≤ 59, and is rejected otherwise |
| Utils.ParseFormatWindow | utils.py:40-45 | a written window `h1:m1-h2:m2` reads back as its two clock times |
| Utils.WithinWindowExactly | utils.py:34-49 | for a window written `h:MM-h:MM` the test is exactly start ≤ time of day ≤ end, to the microsecond, with both ends given by the written hours and minutes |
| Utils.DefaultWindowBounds | utils.py:44-47 | with "9:00-18:00", 09:00:00 and 18:00:00 are inside, while 18:00:30 and 08:59:59.999999 are outside |
| Utils.WindowNeedsOneDash | utils.py:40 | a window without exactly one `-` is rejected, so no timestamp is within it |
| Utils.ClockNeedsOneColon | utils.py:41-42 | a clock time without exactly one `:` is rejected |
| Utils.InvertedWindowIsEmpty | utils.py:47 | a window whose start is after its end contains no time of day |
| Utils.IsWorkingDay | utils.py:52-59 | true only for a decodable timestamp |
| Utils.MondayToFridayWeekdays | utils.py:56-57 | with Monday to Friday configured, a timestamp is on a working day iff its weekday number is below 5 |
| Utils.YearOf | utils.py:62-68 | a year is returned iff the timestamp decodes, and it is the written year, within 1..9999 |
| Utils.LatLngNeedsTwoFields | utils.py:26-31 | text without a comma (such as "52.52" or "") gives no position |
| Utils.LatLngIgnoresExtraFields | utils.py:26-29 | fields after the second are ignored rather than rejected |
| Utils.LatLngFields | utils.py:23-29 | `"<lat>°,<lng>°"` reads as its two fields, whitespace-stripped, each given to the float reader |
| Classifier.Locate | main.py:106-140 | an office placement excludes home; coordinate placements within the radius carry a distance no larger than the radius; a readable position always records a distance, and it is the smaller of the office and home distances of the parsed position (equal to one, no larger than either) |
| Classifier.Observe | main.py:64-104 | a segment counts iff it is a visit with a decodable start, in the filtered year, on a working day; its working-hours flag is the window test; outside working hours it places nothing; inside them the placement is `Locate`'s for the segment's visit |
| Classifier.Record | main.py:96-140 | recording a segment keeps every accumulated set within the one recorded before it |
| Classifier.Pass | main.py:64-140 | after the loop, office, home and distance days are working-hours days, and those are data days |
| Classifier.Breakdown | main.py:163-173 | the tiers are pairwise disjoint, hold only elsewhere days that have a distance, and file each such day under the tier of its distance in km |
| Classifier.Aggregate | main.py:142-153 | office, home and elsewhere are pairwise disjoint and together are the base days; missing avoids the base days; under a year filter with base days in the year, all four together are the expected days; without a filter nothing is missing |
| Classifier.Classify | main.py:42-50 | there is no result exactly when a year filter is set outside 1..9998, because the enumeration raises |
| Properties.PassObserved | main.py:64-140 | a day is in an accumulated set iff some segment of the timeline marks it so |
| Properties.PassNearest | main.py:131-134 | a day has a minimum distance iff some segment recorded one; the entry is attained by a segment and is no larger than any recorded distance for the day |
| Properties.PassOrderIndependent | main.py:64-140 | the loop's outcome depends only on which segments occur, not on their order or repetition |
| Properties.OrderIndependent | main.py:64-186 | reordering or deduplicating the timeline does not change the classification |
| Properties.YearFilter | main.py:77-81 | under a year filter a segment whose start year, as `get_year_from_timestamp` returns it, differs from the filter is dropped, and a kept segment records a day of the filtered year |
| Properties.SkippedSegment | main.py:66-95 | a segment that is not a visit, has no decodable start, is from another year or is not on a working day changes nothing, wherever it sits (between any prefix and suffix of the timeline) |
| Properties.DayCategories | main.py:142-153 | a day is office iff some visit placed it at the office, and home iff some visit placed it at home and none at the office; it is elsewhere iff it is a base day that no visit placed at either; it is missing iff, under a year filter, it is an expected working day that is not a base day |
| Properties.BaseInYear | main.py:76-97 | under a year filter every base day is a working day of that year |
| Properties.ExactCover | main.py:142-153 | under a year filter the four categories are pairwise disjoint and together are exactly the year's working days |
| Properties.NoYearNoMissing | main.py:151-153 | without a year filter nothing is missing and the other three categories cover the base days |
| Properties.Counts2025 | main.py:142-153 | for 2025, Monday to Friday, the four category sizes add up to 261 |
| Properties.OfficeWins | main.py:136-143 | a day any visit placed at the office is office and in no other category |
| Properties.OfficeVisit | main.py:128-140 | a working-hours visit within the radius of the office makes its day office, not elsewhere or missing |
| Properties.OutsideHoursDiverges | main_simple.py:92-120 | under a year filter, a day whose only visit starts outside working hours is elsewhere for the tag classifier but missing for the coordinate classifier |
| Properties.TierMonotone | main.py:165-173 | a larger distance never falls in a nearer tier |
| Properties.TierBoundaries | main.py:165-173 | 50, 150 and 500 km each belong to the farther tier |
| Properties.LocalAndInternational | main.py:163-173 | an elsewhere day is local iff some visit that day was under 50 km from the nearer anchor; it is international iff it has a distance and every visit that day was at least 500 km away |
| Properties.LoneVisitTier | main.py:128-173 | a lone working-hours visit outside both radii makes its day elsewhere, filed under the tier of its nearer distance (80 km gives regional) |
| Properties.ElsewhereWithoutTier | main.py:112-164 | a lone working-hours visit with an unreadable position makes its day elsewhere, yet the day is in no tier |
| Properties.TaggedVisit | main_simple.py:99-111 | a lone tagged working-hours visit makes its day office iff the tag is a work type; home iff it is a home type and not a work type; elsewhere otherwise |
| Properties.EmptyTimeline | main_simple.py:118-120 | with a year filter and no segments, every working day of the year is missing and nothing else is set |

## Left out

- Haversine distance: taken as a parameter of the coordinate mode. Floating
  point is not modelled: distances are reals, and the km conversion is exact
  division.
- `float()` in `parse_latlng`: taken as a parameter, a reader from text to an
  optional real.
- `float()` also reads `"inf"` and `"nan"`, which a real cannot hold. With an
  infinite coordinate, `haversine_distance` raises `ValueError` from
  `math.sin`. That call (main.py:120-129) is not inside a `try`, so the whole
  run aborts. The model has no such abort.
- With a `nan` distance, the `min_distance < day_min_distances[...]` update
  (main.py:133) depends on segment order. `Properties.OrderIndependent`
  holds of the model's real distances, not of the program on such input.
- `datetime.fromisoformat` and its `Z` to `+00:00` rewrite: a segment
  carries its start time already decoded, as `None` when decoding raises.
  The ISO 8601 grammar is not modelled.
- JSON loading, `.env` configuration, `display_results`, the `main` entry
  points and every `print`: this is I/O, with no effect on the classification.
- The `segments_processed` and `segments_skipped` counters: they are only
  printed.
- Sorting of the returned lists: categories are sets. Sorted `YYYY-MM-DD`
  text is their chronological order.
- A segment whose `visit` is JSON `null` raises `AttributeError` at
  main.py:108 and main_simple.py:101. That lookup is outside any `try`, so
  the run aborts, but only once such a segment is a working-hours visit on a
  working day. Before that point it behaves as `Visit("", "")` does. A
  `null` `topCandidate` or `placeLocation` aborts the same way. The abort is
  not modelled.
- Text.ParseInt: the digit limit of `int()` is not modelled. Since Python
  3.11, `int()` raises `ValueError` on text with more than
  `sys.int_info.default_max_str_digits` (4300) digits, and the limit can be
  changed at run time. The model reads digit strings of any length.
- Text.ParseInt: accepts ASCII digits only, while Python's `int()` also
  accepts other Unicode decimal digits. A window written with such digits is
  rejected by the model but accepted by Python.
- Calendar.DayName: names are the C/English locale names of `strftime('%A')`.
  Other locales are not modelled.
- The tag classifier's pass also fills the working-hours set. Its
  aggregation never reads that set, so the result is unaffected.

=== FILE: calendar.dfy ===
/**
 * Proleptic Gregorian dates as Python's `datetime.date` has them: years 1 to
 * 9999, the day ordinal (`toordinal()`, with 0001-01-01 as day 1, a Monday),
 * weekday names as `strftime('%A')` prints them, and the enumeration of
 * every date of a year whose weekday name is in a given set.
 */
module Calendar {
  import opened Wrappers

  const MinYear := 1
  const MaxYear := 9999

  /** A calendar date; the day key of the classification. */
  datatype Date = Date(year: int, month: int, day: int)

  predicate IsLeap(y: int) {
    y % 4 == 0 && (y % 100 != 0 || y % 400 == 0)
  }

  function DaysInYear(y: int): int {
    if IsLeap(y) then 366 else 365
  }

  function DaysInMonth(y: int, m: int): (n: int)
    requires 1 <= m <= 12
    ensures 28 <= n <= 31
  {
    if m == 2 then (if IsLeap(y) then 29 else 28)
    else if m == 4 || m == 6 || m == 9 || m == 11 then 30
    else 31
  }

  /** A date `datetime.date` can hold. */
  predicate ValidDate(d: Date) {
    && MinYear <= d.year <= MaxYear
    && 1 <= d.month <= 12
    && 1 <= d.day <= DaysInMonth(d.year, d.month)
  }

  /** Strict chronological order, as Python compares dates. */
  predicate Before(a: Date, b: Date) {
    || a.year < b.year
    || (a.year == b.year && a.month < b.month)
    || (a.year == b.year && a.month == b.month && a.day < b.day)
  }

  /** Days in all years before `y`: 365 a year plus one per leap year. */
  function DaysBeforeYear(y: int): int
    requires y >= 1
  {
    var p := y - 1;
    p * 365 + p / 4 - p / 100 + p / 400
  }

  /** Days in the months of year `y` before month `m`. */
  function DaysBeforeMonth(y: int, m: int): int
    requires 1 <= m <= 12
  {
    [0, 31, 59, 90, 120, 151, 181, 212, 243, 273, 304, 334][m - 1]
      + (if m > 2 && IsLeap(y) then 1 else 0)
  }

  /** Position of the date within its year, 1 for January 1st. */
  function DayOfYear(d: Date): (n: int)
    requires ValidDate(d)
    ensures 1 <= n <= DaysInYear(d.year)
  {
    DaysBeforeMonth(d.year, d.month) + d.day
  }

  /** `date.toordinal()`: 1 for 0001-01-01, one more for every following day. */
  function Ordinal(d: Date): int
    requires ValidDate(d)
  {
    DaysBeforeYear(d.year) + DayOfYear(d)
  }

  /** `date.weekday()`: 0 for Monday through 6 for Sunday. */
  function Weekday(d: Date): (w: int)
    requires ValidDate(d)
    ensures 0 <= w < 7
  {
    (Ordinal(d) + 6) % 7
  }

  const WeekdayNames: seq<string> :=
    ["Monday", "Tuesday", "Wednesday", "Thursday", "Friday", "Saturday", "Sunday"]

  /** `strftime('%A')` in the C locale. */
  function DayName(d: Date): string
    requires ValidDate(d)
  {
    WeekdayNames[Weekday(d)]
  }

  /**
   * `d + timedelta(days=1)`: the immediately following date, or None past
   * 9999-12-31 (Python's OverflowError).
   */
  function NextDay(d: Date): (r: Option<Date>)
    requires ValidDate(d)
    ensures r.Some? <==> Before(d, Date(MaxYear, 12, 31))
    ensures r.Some? ==> ValidDate(r.value) && Before(d, r.value)
  {
    if d.day < DaysInMonth(d.year, d.month) then Some(Date(d.year, d.month, d.day + 1))
    else if d.month < 12 then Some(Date(d.year, d.month + 1, 1))
    else if d.year < MaxYear then Some(Date(d.year + 1, 1, 1))
    else None
  }

  /** No valid date lies strictly between a date and the day after. */
  lemma NextDayImmediate(d: Date, e: Date)
    requires ValidDate(d) && NextDay(d).Some?
    requires Before(d, e) && Before(e, NextDay(d).value)
    ensures !ValidDate(e)
  {
  }

  /** Month lengths add up month by month. */
  lemma DaysBeforeNextMonth(y: int, m: int)
    requires 1 <= m < 12
    ensures DaysBeforeMonth(y, m + 1) == DaysBeforeMonth(y, m) + DaysInMonth(y, m)
  {
  }

  /** A year holds DaysInYear days of ordinals. */
  lemma {:induction false} DaysBeforeNextYear(y: int)
    requires y >= 1
    ensures DaysBeforeYear(y + 1) == DaysBeforeYear(y) + DaysInYear(y)
  {
    QuotientStep4(y);
    QuotientStep100(y);
    QuotientStep400(y);
  }

  /** Reaching `y` adds one multiple of 4 (of 100, of 400) exactly when `y` is one. */
  lemma QuotientStep4(y: int)
    ensures y / 4 - (y - 1) / 4 == (if y % 4 == 0 then 1 else 0)
  {
  }

  lemma QuotientStep100(y: int)
    ensures y / 100 - (y - 1) / 100 == (if y % 100 == 0 then 1 else 0)
  {
  }

  lemma QuotientStep400(y: int)
    ensures y / 400 - (y - 1) / 400 == (if y % 400 == 0 then 1 else 0)
  {
  }

  /** Within one year, ordinals differ as day-of-year positions do. */
  lemma OrdinalSameYear(d: Date, n: Date)
    requires ValidDate(d) && ValidDate(n) && d.year == n.year
    ensures Ordinal(n) - Ordinal(d) == DayOfYear(n) - DayOfYear(d)
  {
  }

  /** The next day within a month has the next ordinal. */
  lemma OrdinalNextInMonth(y: int, m: int, day: int)
    requires ValidDate(Date(y, m, day)) && day < DaysInMonth(y, m)
    ensures Ordinal(Date(y, m, day + 1)) == Ordinal(Date(y, m, day)) + 1
  {
    OrdinalSameYear(Date(y, m, day), Date(y, m, day + 1));
  }

  /** The first of the next month follows the last of this one. */
  lemma OrdinalNextMonth(y: int, m: int)
    requires MinYear <= y <= MaxYear && 1 <= m < 12
    ensures Ordinal(Date(y, m + 1, 1)) == Ordinal(Date(y, m, DaysInMonth(y, m))) + 1
  {
    DaysBeforeNextMonth(y, m);
    OrdinalSameYear(Date(y, m, DaysInMonth(y, m)), Date(y, m + 1, 1));
  }

  /** December 31st is followed by the next ordinal. */
  lemma OrdinalNewYear(y: int)
    requires MinYear <= y < MaxYear
    ensures Ordinal(Date(y + 1, 1, 1)) == Ordinal(Date(y, 12, 31)) + 1
  {
    DaysBeforeNextYear(y);
    assert DayOfYear(Date(y, 12, 31)) == DaysInYear(y);
    assert DayOfYear(Date(y + 1, 1, 1)) == 1;
  }

  /** The day after has the next ordinal. */
  lemma {:induction false} NextDayOrdinal(d: Date)
    requires ValidDate(d) && NextDay(d).Some?
    ensures Ordinal(NextDay(d).value) == Ordinal(d) + 1
  {
    var n := NextDay(d).value;
    var y, m, day := d.year, d.month, d.day;
    assert d == Date(y, m, day);
    if day < DaysInMonth(y, m) {
      assert n == Date(y, m, day + 1);
      OrdinalNextInMonth(y, m, day);
    } else if m < 12 {
      assert n == Date(y, m + 1, 1) && day == DaysInMonth(y, m);
      OrdinalNextMonth(y, m);
    } else {
      assert n == Date(y + 1, 1, 1) && m == 12 && day == 31;
      OrdinalNewYear(y);
    }
  }

  /** So the weekday of the day after is the next weekday. */
  lemma NextDayWeekday(d: Date)
    requires ValidDate(d) && NextDay(d).Some?
    ensures Weekday(NextDay(d).value) == NextWeekday(Weekday(d))
  {
    NextDayOrdinal(d);
    CycleStep(Ordinal(d) + 6);
  }

  lemma CycleStep(o: int)
    ensures (o + 1) % 7 == NextWeekday(o % 7)
  {
  }

  /** The dates of year `y` whose weekday name is in `days`: what the enumeration must produce. */
  predicate InYearOn(d: Date, y: int, days: set<string>) {
    ValidDate(d) && d.year == y && DayName(d) in days
  }

  /**
   * The loop of `get_all_working_days_in_year` from `cur` on: add `cur` when
   * its weekday is wanted, step one day (which fails past 9999-12-31), and
   * stop once the step leaves year `y`.
   */
  function Walk(cur: Date, y: int, days: set<string>): (r: Option<set<Date>>)
    requires ValidDate(cur) && cur.year == y
    ensures r.Some? <==> y < MaxYear
    ensures r.Some? ==> forall d :: d in r.value <==> InYearOn(d, y, days) && !Before(d, cur)
    decreases 12 - cur.month, 31 - cur.day
  {
    var here: set<Date> := if DayName(cur) in days then {cur} else {};
    match NextDay(cur)
    case None => None
    case Some(n) =>
      if Before(Date(y, 12, 31), n) then
        assert cur == Date(y, 12, 31);
        Some(here)
      else
        match Walk(n, y, days)
        case None => None
        case Some(rest) =>
          WalkCover(cur, n, y, days, here, rest);
          Some(here + rest)
  }

  /** One step of the walk: `cur` itself, then everything from the next day on. */
  lemma WalkCover(cur: Date, n: Date, y: int, days: set<string>, here: set<Date>, rest: set<Date>)
    requires ValidDate(cur) && cur.year == y && NextDay(cur) == Some(n)
    requires here == if DayName(cur) in days then {cur} else {}
    requires forall d :: d in rest <==> InYearOn(d, y, days) && !Before(d, n)
    ensures forall d :: d in here + rest <==> InYearOn(d, y, days) && !Before(d, cur)
  {
    forall d
      ensures d in here + rest <==> InYearOn(d, y, days) && !Before(d, cur)
    {
      if InYearOn(d, y, days) && !Before(d, cur) && d != cur && Before(d, n) {
        NextDayImmediate(cur, d);
      }
    }
  }

  /**
   * `get_all_working_days_in_year(year, days)`: every date from January 1st
   * to December 31st of `year` whose weekday name is in `days`. None where
   * Python raises: a year outside 1..9999 (`date()` refuses it) and 9999
   * itself (the last step overflows).
   */
  function WorkingDaysInYear(y: int, days: set<string>): (r: Option<set<Date>>)
    ensures r.Some? <==> MinYear <= y < MaxYear
    ensures r.Some? ==> forall d :: d in r.value <==> InYearOn(d, y, days)
    ensures r.Some? && days == {} ==> r.value == {}
  {
    if y < MinYear || y > MaxYear then None
    else Walk(Date(y, 1, 1), y, days)
  }

  /** The weekday after `w`: Sunday (6) is followed by Monday (0). */
  function NextWeekday(w: int): (r: int)
    requires 0 <= w < 7
    ensures 0 <= r < 7
  {
    if w == 6 then 0 else w + 1
  }

  /** The weekday `n` days after weekday `w`. */
  function AfterDays(w: int, n: nat): (r: int)
    requires 0 <= w < 7
    ensures 0 <= r < 7
    decreases n
  {
    if n == 0 then w else AfterDays(NextWeekday(w), n - 1)
  }

  lemma {:induction false} AfterDaysSplit(w: int, a: nat, b: nat)
    requires 0 <= w < 7
    ensures AfterDays(w, a + b) == AfterDays(AfterDays(w, a), b)
    decreases a
  {
    if a > 0 {
      AfterDaysSplit(NextWeekday(w), a - 1, b);
    }
  }

  /** A week later it is the same weekday again. */
  lemma AfterWeek(w: int)
    requires 0 <= w < 7
    ensures AfterDays(w, 7) == w
  {
    var w1 := NextWeekday(w);
    var w2 := NextWeekday(w1);
    var w3 := NextWeekday(w2);
    var w4 := NextWeekday(w3);
    var w5 := NextWeekday(w4);
    var w6 := NextWeekday(w5);
    assert AfterDays(w6, 1) == NextWeekday(w6) == w;
    assert AfterDays(w5, 2) == w;
    assert AfterDays(w4, 3) == w;
    assert AfterDays(w3, 4) == w;
    assert AfterDays(w2, 5) == w;
    assert AfterDays(w1, 6) == w;
  }

  lemma {:induction false} AfterWeeks(w: int, k: nat)
    requires 0 <= w < 7
    ensures AfterDays(w, 7 * k) == w
    decreases k
  {
    if k > 0 {
      AfterDaysSplit(w, 7, 7 * (k - 1));
      AfterWeek(w);
      AfterWeeks(w, k - 1);
    }
  }

  /**
   * How many of `n` consecutive days, the first with weekday `w`, have a
   * weekday name in `days`.
   */
  function CountOn(w: int, days: set<string>, n: nat): nat
    requires 0 <= w < 7
    decreases n
  {
    if n == 0 then 0
    else (if WeekdayNames[w] in days then 1 else 0) + CountOn(NextWeekday(w), days, n - 1)
  }

  lemma {:induction false} CountOnBound(w: int, days: set<string>, n: nat)
    requires 0 <= w < 7
    ensures CountOn(w, days, n) <= n
    decreases n
  {
    if n > 0 {
      CountOnBound(NextWeekday(w), days, n - 1);
    }
  }

  /** Counting over a + b days is counting over a days, then over b days from where they end. */
  lemma {:induction false} CountOnSplit(w: int, days: set<string>, a: nat, b: nat)
    requires 0 <= w < 7
    ensures CountOn(w, days, a + b) == CountOn(w, days, a) + CountOn(AfterDays(w, a), days, b)
    decreases a
  {
    if a > 0 {
      CountOnSplit(NextWeekday(w), days, a - 1, b);
    }
  }

  /** Whole weeks: k weeks contain k times the days of one week. */
  lemma {:induction false} CountOnWeeks(w: int, days: set<string>, k: nat)
    requires 0 <= w < 7
    ensures CountOn(w, days, 7 * k) == k * CountOn(w, days, 7)
    decreases k
  {
    if k > 0 {
      var c := CountOn(w, days, 7);
      var m: nat := 7 * (k - 1);
      assert 7 * k == 7 + m;
      CountOnSplit(w, days, 7, m);
      AfterWeek(w);
      CountOnWeeks(w, days, k - 1);
      MulStep(k, c);
    }
  }

  lemma MulStep(k: int, c: int)
    ensures k * c == c + (k - 1) * c
  {
  }

  /** On December 31st the enumeration holds at most that day. */
  lemma WalkLast(y: int, days: set<string>)
    requires MinYear <= y < MaxYear
    ensures Walk(Date(y, 12, 31), y, days).value == (if DayName(Date(y, 12, 31)) in days then {Date(y, 12, 31)} else {})
    ensures DayOfYear(Date(y, 12, 31)) == DaysInYear(y)
  {
  }

  /** Remaining days of the year from `cur` on, `cur` included. */
  function DaysLeft(cur: Date): nat
    requires ValidDate(cur)
  {
    DaysInYear(cur.year) - DayOfYear(cur) + 1
  }

  /**
   * The inductive step of WalkSize: if the enumeration from the next day has
   * the expected size, so has the enumeration from `cur`.
   */
  lemma WalkStep(cur: Date, y: int, days: set<string>)
    requires ValidDate(cur) && cur.year == y && y < MaxYear && cur != Date(y, 12, 31)
    requires NextDay(cur).Some? && NextDay(cur).value.year == y
    requires var n := NextDay(cur).value;
             |Walk(n, y, days).value| == CountOn(Weekday(n), days, DaysLeft(n))
    ensures |Walk(cur, y, days).value| == CountOn(Weekday(cur), days, DaysLeft(cur))
  {
    var n := NextDay(cur).value;
    WalkSplit(cur, y, days);
    NextDayWeekday(cur);
  }

  /** Before December 31st the enumeration is this day's contribution plus the rest. */
  lemma WalkSplit(cur: Date, y: int, days: set<string>)
    requires ValidDate(cur) && cur.year == y && y < MaxYear && cur != Date(y, 12, 31)
    requires NextDay(cur).Some? && NextDay(cur).value.year == y
    ensures DaysLeft(NextDay(cur).value) == DaysLeft(cur) - 1
    ensures |Walk(cur, y, days).value|
         == (if WeekdayNames[Weekday(cur)] in days then 1 else 0) + |Walk(NextDay(cur).value, y, days).value|
  {
    var n := NextDay(cur).value;
    assert !Before(Date(y, 12, 31), n);
    var rest := Walk(n, y, days).value;
    assert cur !in rest;
    assert DayOfYear(n) == DayOfYear(cur) + 1;
  }

  /** The step from `cur` stays in the year unless `cur` is December 31st. */
  lemma NextDayInYear(cur: Date)
    requires ValidDate(cur) && cur.year < MaxYear && cur != Date(cur.year, 12, 31)
    ensures NextDay(cur).Some? && NextDay(cur).value.year == cur.year
  {
  }

  /** The enumeration from `cur` has one element per wanted day left in the year. */
  lemma {:induction false} WalkSize(cur: Date, y: int, days: set<string>)
    requires ValidDate(cur) && cur.year == y && y < MaxYear
    ensures |Walk(cur, y, days).value| == CountOn(Weekday(cur), days, DaysLeft(cur))
    decreases 12 - cur.month, 31 - cur.day
  {
    if cur == Date(y, 12, 31) {
      WalkLast(y, days);
    } else {
      NextDayInYear(cur);
      WalkSize(NextDay(cur).value, y, days);
      WalkStep(cur, y, days);
    }
  }

  /**
   * The enumeration visits every day of the year once: its size is the number
   * of wanted weekdays among DaysInYear consecutive days from the weekday of
   * January 1st, hence at most 366.
   */
  lemma WorkingDaysInYearSize(y: int, days: set<string>)
    requires MinYear <= y < MaxYear
    ensures |WorkingDaysInYear(y, days).value| == CountOn(Weekday(Date(y, 1, 1)), days, DaysInYear(y))
    ensures |WorkingDaysInYear(y, days).value| <= 366
  {
    var jan1 := Date(y, 1, 1);
    WalkSize(jan1, y, days);
    assert DaysLeft(jan1) == DaysInYear(y);
    CountOnBound(Weekday(jan1), days, DaysInYear(y));
  }

  const MondayToFriday: set<string> := {"Monday", "Tuesday", "Wednesday", "Thursday", "Friday"}

  /** 2025 is a common year, and its January 1st was a Wednesday. */
  lemma NewYear2025()
    ensures DaysInYear(2025) == 365
    ensures Weekday(Date(2025, 1, 1)) == 2
  {
    assert Ordinal(Date(2025, 1, 1)) == 739252;
  }

  /** One week holds five days from Monday to Friday, whichever day it starts on. */
  lemma WeekOfMondayToFriday(w: int)
    requires 0 <= w < 7
    ensures CountOn(w, MondayToFriday, 7) == 5
  {
    assert "Monday" in MondayToFriday && "Tuesday" in MondayToFriday && "Wednesday" in MondayToFriday;
    assert "Thursday" in MondayToFriday && "Friday" in MondayToFriday;
    assert "Saturday" !in MondayToFriday && "Sunday" !in MondayToFriday;
    if w == 0 {
      assert CountOn(0, MondayToFriday, 7) == 5;
    } else if w == 1 {
      assert CountOn(1, MondayToFriday, 7) == 5;
    } else if w == 2 {
      assert CountOn(2, MondayToFriday, 7) == 5;
    } else if w == 3 {
      assert CountOn(3, MondayToFriday, 7) == 5;
    } else if w == 4 {
      assert CountOn(4, MondayToFriday, 7) == 5;
    } else if w == 5 {
      assert CountOn(5, MondayToFriday, 7) == 5;
    } else {
      assert CountOn(6, MondayToFriday, 7) == 5;
    }
  }

  /** 2025 starts on a Wednesday and has 365 days, 261 of them Monday to Friday. */
  lemma WorkingDays2025()
    ensures var r := WorkingDaysInYear(2025, MondayToFriday);
            r.Some? && |r.value| == 261
  {
    assert |WorkingDaysInYear(2025, MondayToFriday).value| == CountOn(2, MondayToFriday, 365) by {
      NewYear2025();
      WorkingDaysInYearSize(2025, MondayToFriday);
    }
    assert CountOn(2, MondayToFriday, 365) == 261 by {
      CountOnSplit(2, MondayToFriday, 364, 1);
      assert 364 == 7 * 52;
      CountOnWeeks(2, MondayToFriday, 52);
      AfterWeeks(2, 52);
      WeekOfMondayToFriday(2);
      assert WeekdayNames[2] == "Wednesday";
      assert CountOn(2, MondayToFriday, 1) == 1;
    }
  }
}

=== FILE: classifier.dfy ===
/**
 * The two day classifiers: `categorize_days`, which places each visit by its
 * distance to the configured office and home, and `categorize_days_simple`,
 * which trusts the visit's semantic tag. Both share one pass over the
 * timeline segments, which collects per-day signals, and one aggregation,
 * which turns them into office, home, elsewhere and missing days.
 *
 * Days are keyed by their date; Python keys them by the `%Y-%m-%d` text of
 * the same date, which is one-to-one on valid dates.
 */
module Classifier {
  import opened Wrappers
  import opened Calendar
  import opened Utils

  /** The parts of a segment's `visit.topCandidate` the classifiers read; "" where a key is absent. */
  datatype Visit = Visit(latLng: string, semanticType: string)

  /**
   * One timeline segment: its visit (None when the segment has no `visit`
   * key), its `startTime` text ("" when absent) and that text decoded by
   * `datetime.fromisoformat` (None when decoding raises).
   */
  datatype Segment = Segment(visit: Option<Visit>, startTime: string, start: Option<Stamp>)

  /** `calendar_year` (None when absent), `working_hours`, `days_of_week`. */
  datatype Config = Config(year: Option<int>, workingHours: string, daysOfWeek: set<string>)
  {
    /** `if calendar_year:` is a truthiness test, so year 0 turns the filter off too. */
    predicate HasYear() {
      year.Some? && year.value != 0
    }
  }

  /**
   * How a working-hours visit is placed. Coordinates: a float reader for
   * `parse_latlng`, the haversine distances in metres from a position to the
   * office and to home, and the radius in metres. Tags: the semantic types
   * that mean work and home.
   */
  datatype Mode =
    | Coordinates(parseFloat: string -> Option<real>,
                  officeDistance: (real, real) -> real,
                  homeDistance: (real, real) -> real,
                  radius: int)
    | Tags(workTypes: set<string>, homeTypes: set<string>)

  /** Where one visit put its day, and (coordinates only) its distance to the nearer anchor. */
  datatype Placement = Placement(office: bool, home: bool, distance: Option<real>)

  const Nowhere := Placement(false, false, None)

  /** What one segment contributes to its day. */
  datatype Signal = Signal(day: Date, workingHours: bool, place: Placement)

  /** The smaller of two distances, as Python's `min`. */
  function Min(a: real, b: real): real {
    if b < a then b else a
  }

  /**
   * The last stage of the loop body, reached by working-hours visits only.
   * Coordinates: an empty or unparseable `latLng` places nothing; otherwise
   * the nearer distance is recorded and the day is office when within the
   * radius of the office, else home when within the radius of home. Tags:
   * an empty type places nothing; a work type is office, else a home type
   * is home.
   */
  function Locate(v: Visit, mode: Mode): (p: Placement)
    ensures !(p.office && p.home)
    ensures mode.Tags? ==> p.distance == None
    ensures mode.Coordinates? && (p.office || p.home) ==> p.distance.Some? && p.distance.value <= mode.radius as real
    ensures mode.Coordinates? && p.distance.Some? ==>
      exists lat, lng :: ParseLatLng(v.latLng, mode.parseFloat) == Some((lat, lng))
        && (p.distance.value == mode.officeDistance(lat, lng) || p.distance.value == mode.homeDistance(lat, lng))
        && p.distance.value <= mode.officeDistance(lat, lng)
        && p.distance.value <= mode.homeDistance(lat, lng)
        && (p.office <==> mode.officeDistance(lat, lng) <= mode.radius as real)
        && (p.home <==> !p.office && mode.homeDistance(lat, lng) <= mode.radius as real)
    ensures mode.Coordinates? && v.latLng != "" && ParseLatLng(v.latLng, mode.parseFloat).Some? ==> p.distance.Some?
    ensures mode.Coordinates? && p.distance.None? ==> p == Nowhere
    ensures mode.Tags? ==> (p.office <==> v.semanticType != "" && v.semanticType in mode.workTypes)
    ensures mode.Tags? ==> (p.home <==> v.semanticType != "" && v.semanticType !in mode.workTypes && v.semanticType in mode.homeTypes)
  {
    match mode
    case Coordinates(parseFloat, officeDistance, homeDistance, radius) =>
      if v.latLng == "" then Nowhere
      else
        (match ParseLatLng(v.latLng, parseFloat)
         case None => Nowhere
         case Some((lat, lng)) =>
           var od := officeDistance(lat, lng);
           var hd := homeDistance(lat, lng);
           var office := od <= radius as real;
           Placement(office, !office && hd <= radius as real, Some(Min(od, hd))))
    case Tags(workTypes, homeTypes) =>
      if v.semanticType == "" then Nowhere
      else if v.semanticType in workTypes then Placement(true, false, None)
      else Placement(false, v.semanticType in homeTypes, None)
  }

  /**
   * One iteration of the segment loop up to its first `continue`: None when
   * the segment is skipped before its day counts as having data (no visit,
   * no start time, wrong year, undecodable start, not a working day);
   * otherwise the day, whether the start lies in working hours, and, if it
   * does, the visit's placement.
   */
  function Observe(seg: Segment, cfg: Config, mode: Mode): (r: Option<Signal>)
    ensures r.Some? <==>
      && seg.visit.Some? && seg.startTime != "" && seg.start.Some?
      && (cfg.HasYear() ==> seg.start.value.date.year == cfg.year.value)
      && IsWorkingDay(seg.start, cfg.daysOfWeek)
    ensures r.Some? ==> r.value.day == seg.start.value.date && DayName(r.value.day) in cfg.daysOfWeek
    ensures r.Some? ==> (r.value.workingHours <==> IsWithinWorkingHours(seg.start, cfg.workingHours))
    ensures r.Some? && !r.value.workingHours ==> r.value.place == Nowhere
    ensures r.Some? && r.value.workingHours ==> r.value.place == Locate(seg.visit.value, mode)
  {
    if seg.visit.None? || seg.startTime == "" then None
    else if cfg.HasYear() && YearOf(seg.start) != Some(cfg.year.value) then None
    else
      match seg.start
      case None => None
      case Some(t) =>
        if !IsWorkingDay(seg.start, cfg.daysOfWeek) then None
        else if !IsWithinWorkingHours(seg.start, cfg.workingHours) then Some(Signal(t.date, false, Nowhere))
        else Some(Signal(t.date, true, Locate(seg.visit.value, mode)))
  }

  /**
   * The loop's accumulators: `days_with_data`, `days_with_working_hour_visits`,
   * `office_days`, `home_days` and `day_min_distances`.
   */
  datatype Tally = Tally(withData: set<Date>, withWorkingHours: set<Date>,
                         office: set<Date>, home: set<Date>, nearest: map<Date, real>)

  const Empty := Tally({}, {}, {}, {}, map[])

  /** What every pass keeps: each set refines the one it is recorded after. */
  predicate Consistent(t: Tally) {
    && t.withWorkingHours <= t.withData
    && t.office <= t.withWorkingHours
    && t.home <= t.withWorkingHours
    && t.nearest.Keys <= t.withWorkingHours
  }

  /** Add one segment's signal; a distance replaces the day's entry only when strictly smaller. */
  function Record(t: Tally, s: Signal): (r: Tally)
    requires Consistent(t)
    requires !s.workingHours ==> s.place == Nowhere
    ensures Consistent(r)
  {
    var d := s.day;
    Tally(t.withData + {d},
          if s.workingHours then t.withWorkingHours + {d} else t.withWorkingHours,
          if s.place.office then t.office + {d} else t.office,
          if s.place.home then t.home + {d} else t.home,
          match s.place.distance
          case None => t.nearest
          case Some(x) => if d !in t.nearest || x < t.nearest[d] then t.nearest[d := x] else t.nearest)
  }

  function Step(t: Tally, seg: Segment, cfg: Config, mode: Mode): (r: Tally)
    requires Consistent(t)
    ensures Consistent(r)
  {
    match Observe(seg, cfg, mode)
    case None => t
    case Some(s) => Record(t, s)
  }

  /** The whole `for segment in segments` loop, in file order. */
  function Pass(segs: seq<Segment>, cfg: Config, mode: Mode): (r: Tally)
    ensures Consistent(r)
  {
    if |segs| == 0 then Empty
    else Step(Pass(segs[..|segs| - 1], cfg, mode), segs[|segs| - 1], cfg, mode)
  }

  /** The day sets the loop accumulates, named. */
  datatype Kind = Data | WorkingHours | Office | Home

  function Days(t: Tally, k: Kind): set<Date> {
    match k
    case Data => t.withData
    case WorkingHours => t.withWorkingHours
    case Office => t.office
    case Home => t.home
  }

  /** Segment `seg` alone would put day `d` into the `k` set. */
  predicate Marks(seg: Segment, cfg: Config, mode: Mode, k: Kind, d: Date) {
    var o := Observe(seg, cfg, mode);
    && o.Some? && o.value.day == d
    && match k
       case Data => true
       case WorkingHours => o.value.workingHours
       case Office => o.value.place.office
       case Home => o.value.place.home
  }

  /** The distance segment `seg` alone would record for day `d`, if any. */
  function DistanceOn(seg: Segment, cfg: Config, mode: Mode, d: Date): Option<real> {
    var o := Observe(seg, cfg, mode);
    if o.Some? && o.value.day == d then o.value.place.distance else None
  }

  /** The four elsewhere bands of `categorize_days`, by distance in km. */
  datatype Tier = Local | Regional | National | International

  /** Below 50 km local, below 150 regional, below 500 national, else international. */
  function TierOf(km: real): Tier {
    if km < 50.0 then Local
    else if km < 150.0 then Regional
    else if km < 500.0 then National
    else International
  }

  datatype Tiers = Tiers(local: set<Date>, regional: set<Date>, national: set<Date>, international: set<Date>)

  function Band(b: Tiers, tier: Tier): set<Date> {
    match tier
    case Local => b.local
    case Regional => b.regional
    case National => b.national
    case International => b.international
  }

  /**
   * `elsewhere_breakdown`: each elsewhere day that has a recorded distance,
   * filed under the tier of that distance in km. A day without a distance
   * is filed nowhere.
   */
  function Breakdown(elsewhere: set<Date>, nearest: map<Date, real>): (r: Tiers)
    ensures forall tier, d :: d in Band(r, tier) ==> d in elsewhere && d in nearest
    ensures r.local !! r.regional && r.local !! r.national && r.local !! r.international
    ensures r.regional !! r.national && r.regional !! r.international && r.national !! r.international
    ensures forall d :: d in elsewhere && d in nearest ==> d in Band(r, TierOf(nearest[d] / 1000.0))
  {
    Tiers(set d | d in elsewhere && d in nearest && TierOf(nearest[d] / 1000.0) == Local,
          set d | d in elsewhere && d in nearest && TierOf(nearest[d] / 1000.0) == Regional,
          set d | d in elsewhere && d in nearest && TierOf(nearest[d] / 1000.0) == National,
          set d | d in elsewhere && d in nearest && TierOf(nearest[d] / 1000.0) == International)
  }

  /** The returned dictionary; `breakdown` only in the coordinate classifier. */
  datatype Classification = Classification(office: set<Date>, home: set<Date>, elsewhere: set<Date>,
                                           missing: set<Date>, breakdown: Option<Tiers>)

  /**
   * The days a classification is drawn from: those with a working-hours
   * visit for the coordinate classifier, those with any data for the tag
   * classifier.
   */
  function Base(t: Tally, mode: Mode): set<Date> {
    if mode.Coordinates? then t.withWorkingHours else t.withData
  }

  /**
   * The day categories after the loop: home loses to office, elsewhere is
   * the rest of the base days, and missing (only with a year filter) is
   * every expected working day outside the base.
   */
  function Aggregate(t: Tally, cfg: Config, mode: Mode, expected: set<Date>): (c: Classification)
    requires Consistent(t)
    ensures c.office !! c.home && c.office !! c.elsewhere && c.home !! c.elsewhere
    ensures c.office + c.home + c.elsewhere == Base(t, mode)
    ensures c.missing !! Base(t, mode)
    ensures cfg.HasYear() && Base(t, mode) <= expected ==> c.office + c.home + c.elsewhere + c.missing == expected
    ensures !cfg.HasYear() ==> c.missing == {}
    ensures c.breakdown.Some? <==> mode.Coordinates?
  {
    var base := Base(t, mode);
    var home := t.home - t.office;
    var elsewhere := base - t.office - home;
    var missing := if cfg.HasYear() then expected - base else {};
    Classification(t.office, home, elsewhere, missing,
                   if mode.Coordinates? then Some(Breakdown(elsewhere, t.nearest)) else None)
  }

  /**
   * `categorize_days` (Coordinates) and `categorize_days_simple` (Tags).
   * None where Python raises before the loop: a year filter for which
   * `get_all_working_days_in_year` fails.
   */
  function Classify(segs: seq<Segment>, cfg: Config, mode: Mode): (r: Option<Classification>)
    ensures r.None? <==> cfg.HasYear() && !(MinYear <= cfg.year.value < MaxYear)
  {
    var expected := if cfg.HasYear() then WorkingDaysInYear(cfg.year.value, cfg.daysOfWeek) else Some({});
    match expected
    case None => None
    case Some(e) => Some(Aggregate(Pass(segs, cfg, mode), cfg, mode, e))
  }
}

=== FILE: properties.dfy ===
/**
 * What the classifiers promise, proved against the definitions in
 * Classifier: each accumulated day set is exactly the days some segment
 * marks, so the result depends only on which segments occur; with a year
 * filter the four categories partition the year's working days; office
 * outranks home; and the elsewhere tiers follow the nearest distance seen.
 */
module Properties {
  import opened Wrappers
  import opened Calendar
  import opened Utils
  import opened Classifier

  /** One step adds to the `k` set exactly the day the segment marks. */
  lemma StepDays(t: Tally, seg: Segment, cfg: Config, mode: Mode, k: Kind, d: Date)
    requires Consistent(t)
    ensures d in Days(Step(t, seg, cfg, mode), k) <==> d in Days(t, k) || Marks(seg, cfg, mode, k, d)
  {
  }

  lemma LastSplit(segs: seq<Segment>, s: Segment)
    requires |segs| > 0
    ensures s in segs <==> s in segs[..|segs| - 1] || s == segs[|segs| - 1]
  {
    assert segs == segs[..|segs| - 1] + [segs[|segs| - 1]];
  }

  /** Reference meaning of the loop: a day is in the `k` set iff some segment marks it so. */
  lemma {:induction false} PassObserved(segs: seq<Segment>, cfg: Config, mode: Mode, k: Kind, d: Date)
    ensures d in Days(Pass(segs, cfg, mode), k) <==> exists s :: s in segs && Marks(s, cfg, mode, k, d)
    decreases |segs|
  {
    if |segs| > 0 {
      var p := segs[..|segs| - 1];
      var last := segs[|segs| - 1];
      PassObserved(p, cfg, mode, k, d);
      StepDays(Pass(p, cfg, mode), last, cfg, mode, k, d);
      forall s | true
        ensures s in segs <==> s in p || s == last
      {
        LastSplit(segs, s);
      }
    }
  }

  /** One step's effect on the nearest-distance map. */
  lemma StepNearest(t: Tally, seg: Segment, cfg: Config, mode: Mode, d: Date)
    requires Consistent(t)
    ensures var n := Step(t, seg, cfg, mode).nearest;
            var x := DistanceOn(seg, cfg, mode, d);
            && (d in n <==> d in t.nearest || x.Some?)
            && (d in n && x.None? ==> n[d] == t.nearest[d])
            && (d in n && x.Some? && d !in t.nearest ==> n[d] == x.value)
            && (d in n && x.Some? && d in t.nearest ==> n[d] == Min(t.nearest[d], x.value))
  {
  }

  /**
   * Reference meaning of `day_min_distances`: a day has an entry iff some
   * segment recorded a distance for it, and the entry is the least of those
   * distances.
   */
  lemma {:induction false} PassNearest(segs: seq<Segment>, cfg: Config, mode: Mode, d: Date)
    ensures var n := Pass(segs, cfg, mode).nearest;
            && (d in n <==> exists s :: s in segs && DistanceOn(s, cfg, mode, d).Some?)
            && (d in n ==> exists s :: s in segs && DistanceOn(s, cfg, mode, d) == Some(n[d]))
            && (d in n ==> forall s :: s in segs && DistanceOn(s, cfg, mode, d).Some? ==> n[d] <= DistanceOn(s, cfg, mode, d).value)
    decreases |segs|
  {
    if |segs| > 0 {
      var p := segs[..|segs| - 1];
      var last := segs[|segs| - 1];
      PassNearest(p, cfg, mode, d);
      StepNearest(Pass(p, cfg, mode), last, cfg, mode, d);
      forall s | true
        ensures s in segs <==> s in p || s == last
      {
        LastSplit(segs, s);
      }
    }
  }

  /** The pass depends only on which segments occur: order and repetition do not matter. */
  lemma PassOrderIndependent(segs: seq<Segment>, segs': seq<Segment>, cfg: Config, mode: Mode)
    requires forall s :: s in segs <==> s in segs'
    ensures Pass(segs, cfg, mode) == Pass(segs', cfg, mode)
  {
    var a := Pass(segs, cfg, mode);
    var b := Pass(segs', cfg, mode);
    forall k, d
      ensures d in Days(a, k) <==> d in Days(b, k)
    {
      PassObserved(segs, cfg, mode, k, d);
      PassObserved(segs', cfg, mode, k, d);
    }
    assert a.withData == Days(a, Data) == Days(b, Data) == b.withData;
    assert a.withWorkingHours == Days(a, WorkingHours) == Days(b, WorkingHours) == b.withWorkingHours;
    assert a.office == Days(a, Office) == Days(b, Office) == b.office;
    assert a.home == Days(a, Home) == Days(b, Home) == b.home;
    forall d
      ensures d in a.nearest <==> d in b.nearest
      ensures d in a.nearest ==> a.nearest[d] == b.nearest[d]
    {
      PassNearest(segs, cfg, mode, d);
      PassNearest(segs', cfg, mode, d);
    }
    assert a.nearest == b.nearest;
  }

  /** So does the classification: sorting or deduplicating the timeline changes nothing. */
  lemma OrderIndependent(segs: seq<Segment>, segs': seq<Segment>, cfg: Config, mode: Mode)
    requires forall s :: s in segs <==> s in segs'
    ensures Classify(segs, cfg, mode) == Classify(segs', cfg, mode)
  {
    PassOrderIndependent(segs, segs', cfg, mode);
  }

  /**
   * A segment skipped before its day counts (no visit, no or undecodable
   * start time, another year, not a working day) leaves the result as it
   * was, wherever it sits in the timeline.
   */
  lemma SkippedSegment(pre: seq<Segment>, seg: Segment, post: seq<Segment>, cfg: Config, mode: Mode)
    requires || seg.visit.None? || seg.startTime == "" || seg.start.None?
             || (cfg.HasYear() && seg.start.value.date.year != cfg.year.value)
             || !IsWorkingDay(seg.start, cfg.daysOfWeek)
    ensures Classify(pre + [seg] + post, cfg, mode) == Classify(pre + post, cfg, mode)
  {
    var segs := pre + post;
    assert (segs + [seg])[..|segs|] == segs;
    assert Pass(segs + [seg], cfg, mode) == Pass(segs, cfg, mode);
    forall s | true
      ensures s in pre + [seg] + post <==> s in segs + [seg]
    {
    }
    OrderIndependent(pre + [seg] + post, segs + [seg], cfg, mode);
  }

  /**
   * Under a year filter, a segment whose start decodes to another year, or
   * does not decode, is dropped; one that is kept records a day of the
   * filtered year.
   */
  lemma YearFilter(seg: Segment, cfg: Config, mode: Mode)
    requires cfg.HasYear()
    ensures YearOf(seg.start) != Some(cfg.year.value) ==> Observe(seg, cfg, mode) == None
    ensures Observe(seg, cfg, mode).Some? ==>
      YearOf(seg.start) == Some(cfg.year.value) && Observe(seg, cfg, mode).value.day.year == cfg.year.value
  {
  }

  /** The set a classifier draws its categories from, as a kind. */
  function BaseKind(mode: Mode): (k: Kind)
    ensures forall t :: Days(t, k) == Base(t, mode)
  {
    if mode.Coordinates? then WorkingHours else Data
  }

  predicate Seen(segs: seq<Segment>, cfg: Config, mode: Mode, k: Kind, d: Date) {
    exists s :: s in segs && Marks(s, cfg, mode, k, d)
  }

  /**
   * Reference meaning of the four categories, day by day: office iff some
   * visit placed the day at the office; home iff some visit placed it at
   * home and none at the office; elsewhere iff it is a base day that no
   * visit placed at either; missing iff, under a year filter, it is an
   * expected working day of that year that is not a base day.
   */
  lemma DayCategories(segs: seq<Segment>, cfg: Config, mode: Mode, d: Date)
    requires Classify(segs, cfg, mode).Some?
    ensures var c := Classify(segs, cfg, mode).value;
            && (d in c.office <==> Seen(segs, cfg, mode, Office, d))
            && (d in c.home <==> Seen(segs, cfg, mode, Home, d) && !Seen(segs, cfg, mode, Office, d))
            && (d in c.elsewhere <==>
                  Seen(segs, cfg, mode, BaseKind(mode), d) && !Seen(segs, cfg, mode, Office, d) && !Seen(segs, cfg, mode, Home, d))
            && (d in c.missing <==>
                  cfg.HasYear() && InYearOn(d, cfg.year.value, cfg.daysOfWeek) && !Seen(segs, cfg, mode, BaseKind(mode), d))
  {
    PassObserved(segs, cfg, mode, Office, d);
    PassObserved(segs, cfg, mode, Home, d);
    PassObserved(segs, cfg, mode, BaseKind(mode), d);
  }

  /** In a one-segment timeline, seen means marked by that segment. */
  lemma LoneSeen(seg: Segment, cfg: Config, mode: Mode, k: Kind, d: Date)
    ensures Seen([seg], cfg, mode, k, d) <==> Marks(seg, cfg, mode, k, d)
  {
    assert seg in [seg];
  }

  /** In a one-segment timeline, the nearest distance is that segment's. */
  lemma LoneNearest(seg: Segment, cfg: Config, mode: Mode, d: Date)
    ensures var n := Pass([seg], cfg, mode).nearest;
            && (d in n <==> DistanceOn(seg, cfg, mode, d).Some?)
            && (d in n ==> n[d] == DistanceOn(seg, cfg, mode, d).value)
  {
    assert [seg][..0] == [];
  }

  /** What a one-segment timeline records for the segment's day. */
  lemma LoneDay(seg: Segment, cfg: Config, mode: Mode)
    requires Observe(seg, cfg, mode).Some?
    ensures var o := Observe(seg, cfg, mode).value;
            var n := Pass([seg], cfg, mode).nearest;
            && Seen([seg], cfg, mode, Data, o.day)
            && (Seen([seg], cfg, mode, WorkingHours, o.day) <==> o.workingHours)
            && (Seen([seg], cfg, mode, Office, o.day) <==> o.place.office)
            && (Seen([seg], cfg, mode, Home, o.day) <==> o.place.home)
            && (o.day in n <==> o.place.distance.Some?)
            && (o.day in n ==> n[o.day] == o.place.distance.value)
  {
    var d := Observe(seg, cfg, mode).value.day;
    LoneSeen(seg, cfg, mode, Data, d);
    LoneSeen(seg, cfg, mode, WorkingHours, d);
    LoneSeen(seg, cfg, mode, Office, d);
    LoneSeen(seg, cfg, mode, Home, d);
    LoneNearest(seg, cfg, mode, d);
  }

  /** The breakdown files an elsewhere day with a recorded distance under that distance's tier, and nothing else. */
  lemma BandOf(segs: seq<Segment>, cfg: Config, mode: Mode, d: Date, tier: Tier)
    requires mode.Coordinates? && Classify(segs, cfg, mode).Some?
    ensures var c := Classify(segs, cfg, mode).value;
            var n := Pass(segs, cfg, mode).nearest;
            && c.breakdown.Some?
            && (d in Band(c.breakdown.value, tier) <==> d in c.elsewhere && d in n && TierOf(n[d] / 1000.0) == tier)
  {
    var c := Classify(segs, cfg, mode).value;
    var n := Pass(segs, cfg, mode).nearest;
    assert c.breakdown.value == Breakdown(c.elsewhere, n);
  }

  /** Every base day of a pass under a year filter is an expected working day of that year. */
  lemma BaseInYear(segs: seq<Segment>, cfg: Config, mode: Mode, d: Date)
    requires cfg.HasYear()
    requires d in Base(Pass(segs, cfg, mode), mode)
    ensures InYearOn(d, cfg.year.value, cfg.daysOfWeek)
  {
    var t := Pass(segs, cfg, mode);
    assert d in Days(t, Data);
    PassObserved(segs, cfg, mode, Data, d);
    var s :| s in segs && Marks(s, cfg, mode, Data, d);
  }

  /**
   * Under a year filter the four categories are pairwise disjoint and
   * together are exactly the year's expected working days.
   */
  lemma ExactCover(segs: seq<Segment>, cfg: Config, mode: Mode)
    requires cfg.HasYear() && Classify(segs, cfg, mode).Some?
    ensures var c := Classify(segs, cfg, mode).value;
            && c.office !! c.home && c.office !! c.elsewhere && c.office !! c.missing
            && c.home !! c.elsewhere && c.home !! c.missing && c.elsewhere !! c.missing
            && c.office + c.home + c.elsewhere + c.missing
               == WorkingDaysInYear(cfg.year.value, cfg.daysOfWeek).value
  {
    var t := Pass(segs, cfg, mode);
    forall d | d in Base(t, mode)
      ensures d in WorkingDaysInYear(cfg.year.value, cfg.daysOfWeek).value
    {
      BaseInYear(segs, cfg, mode, d);
    }
  }

  /** Without a year filter nothing is missing and every category lies within the days seen. */
  lemma NoYearNoMissing(segs: seq<Segment>, cfg: Config, mode: Mode)
    requires !cfg.HasYear()
    ensures Classify(segs, cfg, mode).Some?
    ensures var c := Classify(segs, cfg, mode).value;
            && c.missing == {}
            && c.office + c.home + c.elsewhere == Base(Pass(segs, cfg, mode), mode)
  {
  }

  /** In 2025, Monday to Friday, the four counts add up to 261. */
  lemma Counts2025(segs: seq<Segment>, cfg: Config, mode: Mode)
    requires cfg.year == Some(2025) && cfg.daysOfWeek == MondayToFriday
    ensures Classify(segs, cfg, mode).Some?
    ensures var c := Classify(segs, cfg, mode).value;
            |c.office| + |c.home| + |c.elsewhere| + |c.missing| == 261
  {
    var c := Classify(segs, cfg, mode).value;
    ExactCover(segs, cfg, mode);
    WorkingDays2025();
    assert |c.office + c.home| == |c.office| + |c.home|;
    assert |c.office + c.home + c.elsewhere| == |c.office + c.home| + |c.elsewhere|;
  }

  /** Office wins: a day any visit placed at the office is office and nothing else. */
  lemma OfficeWins(segs: seq<Segment>, cfg: Config, mode: Mode, s: Segment, d: Date)
    requires Classify(segs, cfg, mode).Some?
    requires s in segs && Marks(s, cfg, mode, Office, d)
    ensures var c := Classify(segs, cfg, mode).value;
            d in c.office && d !in c.home && d !in c.elsewhere && d !in c.missing
  {
    DayCategories(segs, cfg, mode, d);
    var t := Pass(segs, cfg, mode);
    PassObserved(segs, cfg, mode, Office, d);
    assert d in Base(t, mode);
  }

  /**
   * The two classifiers part ways on a day whose only visit starts outside
   * working hours: the tag classifier counts it elsewhere, the coordinate
   * classifier counts it missing.
   */
  lemma OutsideHoursDiverges(seg: Segment, cfg: Config, coords: Mode, tags: Mode)
    requires coords.Coordinates? && tags.Tags?
    requires cfg.HasYear() && MinYear <= cfg.year.value < MaxYear
    requires Observe(seg, cfg, tags).Some? && !IsWithinWorkingHours(seg.start, cfg.workingHours)
    ensures var d := seg.start.value.date;
            && d in Classify([seg], cfg, tags).value.elsewhere
            && d in Classify([seg], cfg, coords).value.missing
  {
    var d := seg.start.value.date;
    DayCategories([seg], cfg, tags, d);
    DayCategories([seg], cfg, coords, d);
    assert Marks(seg, cfg, tags, Data, d);
    assert forall s :: s in [seg] ==> s == seg;
  }

  /** The tiers cut the distance line at 50, 150 and 500 km, each cut belonging to the farther tier. */
  function Rank(t: Tier): nat {
    match t
    case Local => 0
    case Regional => 1
    case National => 2
    case International => 3
  }

  lemma TierMonotone(a: real, b: real)
    requires a <= b
    ensures Rank(TierOf(a)) <= Rank(TierOf(b))
  {
  }

  lemma TierBoundaries()
    ensures TierOf(49.999) == Local && TierOf(50.0) == Regional
    ensures TierOf(149.999) == Regional && TierOf(150.0) == National
    ensures TierOf(499.999) == National && TierOf(500.0) == International
    ensures TierOf(0.0) == Local && TierOf(80.0) == Regional
  {
  }

  /**
   * The breakdown of a coordinate classification, day by day: a day is
   * local iff it is elsewhere and some visit that day was within 50 km of
   * the nearer anchor; international iff it is elsewhere, has a distance,
   * and every visit that day was 500 km or more away.
   */
  lemma LocalAndInternational(segs: seq<Segment>, cfg: Config, mode: Mode, d: Date)
    requires mode.Coordinates? && Classify(segs, cfg, mode).Some?
    ensures var c := Classify(segs, cfg, mode).value;
            && c.breakdown.Some?
            && (d in c.breakdown.value.local <==>
                  d in c.elsewhere && exists s :: s in segs && DistanceOn(s, cfg, mode, d).Some?
                                                && DistanceOn(s, cfg, mode, d).value < 50_000.0)
            && (d in c.breakdown.value.international <==>
                  && d in c.elsewhere
                  && (exists s :: s in segs && DistanceOn(s, cfg, mode, d).Some?)
                  && forall s :: s in segs && DistanceOn(s, cfg, mode, d).Some? ==> DistanceOn(s, cfg, mode, d).value >= 500_000.0)
  {
    var c := Classify(segs, cfg, mode).value;
    var n := Pass(segs, cfg, mode).nearest;
    PassNearest(segs, cfg, mode, d);
    var b := c.breakdown.value;
    assert b == Breakdown(c.elsewhere, n);
    if d in c.elsewhere && d in n {
      assert d in Band(b, TierOf(n[d] / 1000.0));
    }
  }

  /**
   * A visit in working hours, placed by coordinates but outside the radius
   * of both anchors, makes a lone day elsewhere, filed under the tier of its
   * nearer distance: at 80 km from both, regional.
   */
  lemma LoneVisitTier(seg: Segment, cfg: Config, mode: Mode, lat: real, lng: real)
    requires mode.Coordinates? && Classify([seg], cfg, mode).Some?
    requires Observe(seg, cfg, mode).Some? && IsWithinWorkingHours(seg.start, cfg.workingHours)
    requires seg.visit.value.latLng != "" && ParseLatLng(seg.visit.value.latLng, mode.parseFloat) == Some((lat, lng))
    requires mode.officeDistance(lat, lng) > mode.radius as real && mode.homeDistance(lat, lng) > mode.radius as real
    ensures var c := Classify([seg], cfg, mode).value;
            var d := seg.start.value.date;
            && d in c.elsewhere
            && d in Band(c.breakdown.value, TierOf(Min(mode.officeDistance(lat, lng), mode.homeDistance(lat, lng)) / 1000.0))
  {
    var d := seg.start.value.date;
    var x := Min(mode.officeDistance(lat, lng), mode.homeDistance(lat, lng));
    assert Observe(seg, cfg, mode).value == Signal(d, true, Placement(false, false, Some(x))) by {
      Placed(seg.visit.value, mode, lat, lng);
    }
    LoneDay(seg, cfg, mode);
    DayCategories([seg], cfg, mode, d);
    BandOf([seg], cfg, mode, d, TierOf(x / 1000.0));
  }

  /**
   * A visit in working hours whose position is within the radius of the
   * office (at the office itself, say, with the default 100 m) makes its day
   * an office day, and neither elsewhere nor missing.
   */
  lemma OfficeVisit(segs: seq<Segment>, cfg: Config, mode: Mode, seg: Segment, lat: real, lng: real)
    requires mode.Coordinates? && Classify(segs, cfg, mode).Some? && seg in segs
    requires Observe(seg, cfg, mode).Some? && IsWithinWorkingHours(seg.start, cfg.workingHours)
    requires seg.visit.value.latLng != "" && ParseLatLng(seg.visit.value.latLng, mode.parseFloat) == Some((lat, lng))
    requires mode.officeDistance(lat, lng) <= mode.radius as real
    ensures var c := Classify(segs, cfg, mode).value;
            var d := seg.start.value.date;
            d in c.office && d !in c.home && d !in c.elsewhere && d !in c.missing
  {
    var d := seg.start.value.date;
    assert Observe(seg, cfg, mode).value == Signal(d, true, Locate(seg.visit.value, mode));
    assert Locate(seg.visit.value, mode).office;
    OfficeWins(segs, cfg, mode, seg, d);
  }

  /**
   * A visit in working hours with no usable position (empty or unreadable
   * `latLng`) still makes its day elsewhere in the coordinate classifier,
   * yet the day has no distance and lands in no tier.
   */
  lemma ElsewhereWithoutTier(seg: Segment, cfg: Config, mode: Mode)
    requires mode.Coordinates? && Classify([seg], cfg, mode).Some?
    requires Observe(seg, cfg, mode).Some? && IsWithinWorkingHours(seg.start, cfg.workingHours)
    requires ParseLatLng(seg.visit.value.latLng, mode.parseFloat).None?
    ensures var c := Classify([seg], cfg, mode).value;
            var d := seg.start.value.date;
            && d in c.elsewhere
            && forall tier :: d !in Band(c.breakdown.value, tier)
  {
    var d := seg.start.value.date;
    assert Observe(seg, cfg, mode).value == Signal(d, true, Nowhere) by {
      Unplaced(seg.visit.value, mode);
    }
    LoneDay(seg, cfg, mode);
    DayCategories([seg], cfg, mode, d);
    forall tier
      ensures d !in Band(Classify([seg], cfg, mode).value.breakdown.value, tier)
    {
      BandOf([seg], cfg, mode, d, tier);
    }
  }

  /** Locate on a readable position outside both radii. */
  lemma Placed(v: Visit, mode: Mode, lat: real, lng: real)
    requires mode.Coordinates? && v.latLng != "" && ParseLatLng(v.latLng, mode.parseFloat) == Some((lat, lng))
    requires mode.officeDistance(lat, lng) > mode.radius as real && mode.homeDistance(lat, lng) > mode.radius as real
    ensures Locate(v, mode) == Placement(false, false, Some(Min(mode.officeDistance(lat, lng), mode.homeDistance(lat, lng))))
  {
  }

  /** Locate on an unreadable position. */
  lemma Unplaced(v: Visit, mode: Mode)
    requires mode.Coordinates? && ParseLatLng(v.latLng, mode.parseFloat).None?
    ensures Locate(v, mode) == Nowhere
  {
  }

  /** A tagged visit in working hours: a work type makes an office day, a home type only a home day. */
  lemma TaggedVisit(seg: Segment, cfg: Config, mode: Mode)
    requires mode.Tags? && Classify([seg], cfg, mode).Some?
    requires Observe(seg, cfg, mode).Some? && IsWithinWorkingHours(seg.start, cfg.workingHours)
    requires seg.visit.value.semanticType != ""
    ensures var c := Classify([seg], cfg, mode).value;
            var d := seg.start.value.date;
            var ty := seg.visit.value.semanticType;
            && (d in c.office <==> ty in mode.workTypes)
            && (d in c.home <==> ty !in mode.workTypes && ty in mode.homeTypes)
            && (d in c.elsewhere <==> ty !in mode.workTypes && ty !in mode.homeTypes)
  {
    var d := seg.start.value.date;
    assert Observe(seg, cfg, mode).value == Signal(d, true, Locate(seg.visit.value, mode));
    LoneDay(seg, cfg, mode);
    DayCategories([seg], cfg, mode, d);
  }

  /** With a year filter and no segments at all, every expected working day is missing. */
  lemma EmptyTimeline(cfg: Config, mode: Mode)
    requires cfg.HasYear() && MinYear <= cfg.year.value < MaxYear
    ensures var c := Classify([], cfg, mode).value;
            && c.office == {} && c.home == {} && c.elsewhere == {}
            && c.missing == WorkingDaysInYear(cfg.year.value, cfg.daysOfWeek).value
  {
  }
}

=== FILE: text.dfy ===
/**
 * String helpers with the semantics of the Python built-ins the calendar
 * helpers rely on: `str.split(sep)` for a one-character separator,
 * `str.replace(c, '')`, `str.strip()` and `int(text)`.
 */
module Text {
  import opened Wrappers

  /** Inverse of Split: the pieces glued back together with `sep` between them. */
  function Join(parts: seq<string>, sep: char): string
    requires |parts| >= 1
  {
    if |parts| == 1 then parts[0] else parts[0] + [sep] + Join(parts[1..], sep)
  }

  /**
   * `s.split(sep)`: the maximal runs between occurrences of `sep`. There is
   * always at least one piece and no piece contains the separator.
   */
  function Split(s: string, sep: char): (r: seq<string>)
    ensures |r| >= 1
    ensures forall i :: 0 <= i < |r| ==> sep !in r[i]
    decreases |s|
  {
    if |s| == 0 then [""]
    else
      var rest := Split(s[1..], sep);
      if s[0] == sep then [""] + rest
      else [[s[0]] + rest[0]] + rest[1..]
  }

  /** Number of occurrences of `c` in `s`. */
  function Count(s: string, c: char): nat {
    multiset(s)[c]
  }

  /** Joining the pieces gives back the string: nothing is lost or invented. */
  lemma {:induction false} JoinSplit(s: string, sep: char)
    ensures Join(Split(s, sep), sep) == s
    decreases |s|
  {
    if |s| > 0 {
      var rest := Split(s[1..], sep);
      JoinSplit(s[1..], sep);
      assert s == [s[0]] + s[1..];
      if s[0] != sep {
        var r := [[s[0]] + rest[0]] + rest[1..];
        assert r[1..] == rest[1..];
        if |rest| > 1 {
          assert Join(rest, sep) == rest[0] + [sep] + Join(rest[1..], sep);
        }
      }
    }
  }

  /** There is exactly one more piece than there are separators. */
  lemma {:induction false} SplitCount(s: string, sep: char)
    ensures |Split(s, sep)| == Count(s, sep) + 1
    decreases |s|
  {
    if |s| > 0 {
      SplitCount(s[1..], sep);
      assert s == [s[0]] + s[1..];
      assert multiset(s) == multiset([s[0]]) + multiset(s[1..]);
    }
  }

  /** Splitting at a separator splits the two sides independently. */
  lemma {:induction false} SplitAround(a: string, b: string, sep: char)
    ensures Split(a + [sep] + b, sep) == Split(a, sep) + Split(b, sep)
    decreases |a|
  {
    if |a| == 0 {
      assert a + [sep] + b == [sep] + b;
      assert ([sep] + b)[1..] == b;
    } else {
      SplitAround(a[1..], b, sep);
      SplitCons(a, b, sep);
    }
  }

  /** The first character of `a` extends or opens the first piece, whatever follows `a`. */
  lemma SplitCons(a: string, b: string, sep: char)
    requires |a| > 0
    requires Split(a[1..] + [sep] + b, sep) == Split(a[1..], sep) + Split(b, sep)
    ensures Split(a + [sep] + b, sep) == Split(a, sep) + Split(b, sep)
  {
    var s := a + [sep] + b;
    var p := Split(a[1..], sep);
    var q := Split(b, sep);
    assert s[0] == a[0] && s[1..] == a[1..] + [sep] + b;
    if a[0] == sep {
      SplitHead(s, sep);
      SplitHead(a, sep);
      Assoc([""], p, q);
    } else {
      SplitHead(s, sep);
      SplitHead(a, sep);
      HeadTail(p, q);
      Assoc([[a[0]] + p[0]], p[1..], q);
    }
  }

  lemma Assoc<T>(x: seq<T>, y: seq<T>, z: seq<T>)
    ensures x + (y + z) == (x + y) + z
  {
  }

  lemma HeadTail<T>(p: seq<T>, q: seq<T>)
    requires |p| > 0
    ensures (p + q)[0] == p[0] && (p + q)[1..] == p[1..] + q
  {
  }

  /** One step of Split: the first character opens a new piece or joins the first one. */
  lemma SplitHead(s: string, sep: char)
    requires |s| > 0
    ensures var rest := Split(s[1..], sep);
            Split(s, sep) == if s[0] == sep then [""] + rest else [[s[0]] + rest[0]] + rest[1..]
  {
  }

  /** A string without the separator is a single piece. */
  lemma {:induction false} SplitFree(a: string, sep: char)
    requires sep !in a
    ensures Split(a, sep) == [a]
    decreases |a|
  {
    if |a| > 0 {
      SplitFree(a[1..], sep);
      assert a == [a[0]] + a[1..];
    }
  }

  /** Two separator-free fields around one separator split into exactly those fields. */
  lemma SplitTwo(a: string, b: string, sep: char)
    requires sep !in a && sep !in b
    ensures Split(a + [sep] + b, sep) == [a, b]
  {
    SplitAround(a, b, sep);
    SplitFree(a, sep);
    SplitFree(b, sep);
    Pair(a, b);
  }

  lemma Pair<T>(x: T, y: T)
    ensures [x] + [y] == [x, y]
  {
  }

  /** Split undoes Join when no piece holds the separator. */
  lemma {:induction false} SplitJoin(parts: seq<string>, sep: char)
    requires |parts| >= 1
    requires forall i :: 0 <= i < |parts| ==> sep !in parts[i]
    ensures Split(Join(parts, sep), sep) == parts
    decreases |parts|
  {
    if |parts| == 1 {
      SplitFree(parts[0], sep);
    } else {
      SplitJoin(parts[1..], sep);
      SplitAround(parts[0], Join(parts[1..], sep), sep);
      SplitFree(parts[0], sep);
      assert parts == [parts[0]] + parts[1..];
    }
  }

  /** `s.replace(c, '')`: every occurrence of `c` dropped, all else kept in order. */
  function RemoveAll(s: string, c: char): (r: string)
    ensures c !in r
    ensures forall x :: x != c ==> multiset(r)[x] == multiset(s)[x]
    decreases |s|
  {
    if |s| == 0 then ""
    else
      assert s == [s[0]] + s[1..];
      (if s[0] == c then "" else [s[0]]) + RemoveAll(s[1..], c)
  }

  /** On a single character RemoveAll keeps it unless it is `c`. */
  lemma RemoveAllChar(x: char, c: char)
    ensures RemoveAll([x], c) == if x == c then "" else [x]
  {
    assert [x][1..] == "";
  }

  /** RemoveAll works piecewise over a concatenation. */
  lemma {:induction false} RemoveAllAppend(a: string, b: string, c: char)
    ensures RemoveAll(a + b, c) == RemoveAll(a, c) + RemoveAll(b, c)
    decreases |a|
  {
    if |a| == 0 {
      assert a + b == b;
    } else {
      assert (a + b)[1..] == a[1..] + b;
      RemoveAllAppend(a[1..], b, c);
    }
  }

  /** A string without `c` is left as it is. */
  lemma {:induction false} RemoveAllFree(s: string, c: char)
    requires c !in s
    ensures RemoveAll(s, c) == s
    decreases |s|
  {
    if |s| > 0 {
      RemoveAllFree(s[1..], c);
      assert s == [s[0]] + s[1..];
    }
  }

  /**
   * Python's `str.isspace()` characters: the ASCII controls TAB..CR and
   * FS..US, space, and the Unicode separators.
   */
  predicate IsSpace(c: char) {
    || 9 <= c as int <= 13
    || 28 <= c as int <= 32
    || c as int == 0x85 || c as int == 0xA0 || c as int == 0x1680
    || 0x2000 <= c as int <= 0x200A
    || c as int == 0x2028 || c as int == 0x2029 || c as int == 0x202F
    || c as int == 0x205F || c as int == 0x3000
  }

  /**
   * The whitespace `int()` skips around its digits: ASCII TAB..CR and space,
   * plus the non-ASCII `isspace()` characters, which it first maps to a
   * space. The ASCII separators FS..US are `isspace()` but are not skipped.
   */
  predicate IsIntSpace(c: char) {
    IsSpace(c) && !(28 <= c as int <= 31)
  }

  /** The longest infix of `s` that neither starts nor ends with a character in `space`. */
  function Trim(s: string, space: char -> bool): (r: string)
    ensures |r| > 0 ==> !space(r[0]) && !space(r[|r| - 1])
    ensures exists i, j ::
              && 0 <= i <= j <= |s| && r == s[i..j]
              && (forall k :: 0 <= k < i ==> space(s[k]))
              && (forall k :: j <= k < |s| ==> space(s[k]))
  {
    var i := SkipLeading(s, space, 0);
    var j := SkipTrailing(s, space, i, |s|);
    s[i..j]
  }

  function SkipLeading(s: string, space: char -> bool, i: nat): (k: nat)
    requires i <= |s|
    ensures i <= k <= |s|
    ensures forall x :: i <= x < k ==> space(s[x])
    ensures k < |s| ==> !space(s[k])
    decreases |s| - i
  {
    if i < |s| && space(s[i]) then SkipLeading(s, space, i + 1) else i
  }

  function SkipTrailing(s: string, space: char -> bool, lo: nat, j: nat): (k: nat)
    requires lo <= j <= |s|
    requires lo < |s| ==> !space(s[lo])
    ensures lo <= k <= j
    ensures forall x :: k <= x < j ==> space(s[x])
    ensures k > lo ==> !space(s[k - 1])
    ensures lo < j ==> lo < k
    decreases j
  {
    if j > lo && space(s[j - 1]) then SkipTrailing(s, space, lo, j - 1) else j
  }

  /** A string that neither starts nor ends with a `space` character is its own trim. */
  lemma TrimUnpadded(s: string, space: char -> bool)
    requires |s| > 0 ==> !space(s[0]) && !space(s[|s| - 1])
    ensures Trim(s, space) == s
  {
    var i := SkipLeading(s, space, 0);
    assert i == 0;
    var j := SkipTrailing(s, space, i, |s|);
    assert j == |s|;
  }

  /** `s.strip()`: the longest infix that neither starts nor ends with whitespace. */
  function Strip(s: string): (r: string)
    ensures |r| > 0 ==> !IsSpace(r[0]) && !IsSpace(r[|r| - 1])
    ensures exists i, j ::
              && 0 <= i <= j <= |s| && r == s[i..j]
              && (forall k :: 0 <= k < i ==> IsSpace(s[k]))
              && (forall k :: j <= k < |s| ==> IsSpace(s[k]))
  {
    Trim(s, IsSpace)
  }

  /** A string with no surrounding whitespace is its own strip. */
  lemma StripUnpadded(s: string)
    requires |s| > 0 ==> !IsSpace(s[0]) && !IsSpace(s[|s| - 1])
    ensures Strip(s) == s
  {
    TrimUnpadded(s, IsSpace);
  }

  predicate IsDigit(c: char) { '0' <= c <= '9' }

  /**
   * The digit part `int()` accepts: ASCII digits, optionally grouped by single
   * underscores that sit between two digits.
   */
  predicate IsDigitGroup(s: string) {
    && |s| > 0
    && IsDigit(s[0]) && IsDigit(s[|s| - 1])
    && (forall i :: 0 <= i < |s| ==> IsDigit(s[i]) || s[i] == '_')
    && (forall i :: 0 <= i < |s| - 1 ==> !(s[i] == '_' && s[i + 1] == '_'))
  }

  /** Decimal value of the digits of `s`, read most significant first, underscores skipped. */
  function DigitsValue(s: string): (n: nat)
    requires forall i :: 0 <= i < |s| ==> IsDigit(s[i]) || s[i] == '_'
    decreases |s|
  {
    if |s| == 0 then 0
    else if s[|s| - 1] == '_' then DigitsValue(s[..|s| - 1])
    else
      assert IsDigit(s[|s| - 1]);
      10 * DigitsValue(s[..|s| - 1]) + (s[|s| - 1] as int - '0' as int)
  }

  /**
   * `int(s)` for a string: surrounding `IsIntSpace` whitespace skipped, one
   * optional sign, then a digit group; anything else is a failure (Python's
   * ValueError).
   */
  function ParseInt(s: string): Option<int> {
    var t := Trim(s, IsIntSpace);
    var signed := |t| > 0 && (t[0] == '+' || t[0] == '-');
    var body := if signed then t[1..] else t;
    if !IsDigitGroup(body) then None
    else
      var v: int := DigitsValue(body);
      if signed && t[0] == '-' then Some(-v) else Some(v)
  }

  /**
   * `int()` skips ASCII blanks around its digits but, unlike `strip()`, not
   * the separator FS (U+001C): `int("\x1c9")` is a ValueError.
   */
  lemma IntWhitespace()
    ensures ParseInt(" 9\n") == Some(9)
    ensures ParseInt("\U{001C}9") == None
    ensures Strip("\U{001C}9") == "9"
  {
    var s := " 9\n";
    assert SkipLeading(s, IsIntSpace, 1) == 1;
    assert SkipLeading(s, IsIntSpace, 0) == 1;
    assert SkipTrailing(s, IsIntSpace, 1, 2) == 2;
    assert SkipTrailing(s, IsIntSpace, 1, 3) == 2;
    assert Trim(s, IsIntSpace) == "9";
    assert DigitsValue("9") == 9;
    var u := "\U{001C}9";
    assert SkipLeading(u, IsIntSpace, 0) == 0;
    assert SkipLeading(u, IsSpace, 1) == 1;
    assert SkipLeading(u, IsSpace, 0) == 1;
    assert SkipTrailing(u, IsSpace, 1, 2) == 2;
  }

  /** Decimal rendering of a natural number without leading zeros (`str(n)`). */
  function ShowNat(n: nat): (r: string)
    ensures |r| > 0
    ensures forall i :: 0 <= i < |r| ==> IsDigit(r[i])
    ensures n < 10 <==> |r| == 1
    decreases n
  {
    if n < 10 then [('0' as int + n) as char]
    else ShowNat(n / 10) + [('0' as int + n % 10) as char]
  }

  /** Reading back a rendered number gives the number. */
  lemma {:induction false} ShowNatValue(n: nat)
    ensures DigitsValue(ShowNat(n)) == n
    decreases n
  {
    var r := ShowNat(n);
    if n >= 10 {
      ShowNatValue(n / 10);
      assert r[..|r| - 1] == ShowNat(n / 10);
    }
  }

  /** `int(str(n)) == n`: the integer parser inverts the renderer. */
  lemma ParseShowNat(n: nat)
    ensures ParseInt(ShowNat(n)) == Some(n)
  {
    var s := ShowNat(n);
    assert !IsIntSpace(s[0]) && !IsIntSpace(s[|s| - 1]);
    TrimUnpadded(s, IsIntSpace);
    assert s[0] != '+' && s[0] != '-';
    assert IsDigitGroup(s);
    ShowNatValue(n);
  }

  /** Zero-padding `n` to two digits, as `f"{n:02d}"` does for 0 <= n <= 99. */
  function Pad2(n: nat): (r: string)
    requires n < 100
    ensures |r| == 2
    ensures forall i :: 0 <= i < |r| ==> IsDigit(r[i])
  {
    if n < 10 then "0" + ShowNat(n)
    else
      assert |ShowNat(n / 10)| == 1;
      ShowNat(n)
  }

  /** A padded number parses back to itself. */
  lemma ParsePad2(n: nat)
    requires n < 100
    ensures ParseInt(Pad2(n)) == Some(n)
  {
    if n < 10 {
      var s := Pad2(n);
      assert s == ['0', ('0' as int + n) as char];
      TrimUnpadded(s, IsIntSpace);
      assert IsDigitGroup(s);
      assert s[..1] == "0";
      assert DigitsValue(s[..1]) == 0;
    } else {
      ParseShowNat(n);
    }
  }
}

=== FILE: utils.dfy ===
/**
 * The per-timestamp predicates of the calendar helper module: the
 * working-hours window test, the working-day test, year extraction and the
 * "lat°, lng°" splitter. Every one of them answers false or None on
 * malformed input instead of raising.
 *
 * A timestamp reaches these helpers already decoded: `Option<Stamp>` is the
 * outcome of `datetime.fromisoformat` on the segment's start time, None when
 * that raised.
 */
module Utils {
  import opened Wrappers
  import opened Text
  import opened Calendar

  /** A wall-clock time of day, as `datetime.time()` returns it. */
  datatype Time = Time(hour: int, minute: int, second: int, micro: int)

  predicate ValidTime(t: Time) {
    && 0 <= t.hour < 24 && 0 <= t.minute < 60
    && 0 <= t.second < 60 && 0 <= t.micro < 1_000_000
  }

  /** Python orders times field by field, hour first. */
  predicate TimeLeq(a: Time, b: Time) {
    || a.hour < b.hour
    || (a.hour == b.hour && a.minute < b.minute)
    || (a.hour == b.hour && a.minute == b.minute && a.second < b.second)
    || (a.hour == b.hour && a.minute == b.minute && a.second == b.second && a.micro <= b.micro)
  }

  /** Microseconds since midnight. */
  function Micros(t: Time): int {
    ((t.hour * 60 + t.minute) * 60 + t.second) * 1_000_000 + t.micro
  }

  /** Field-by-field order is the order of instants within the day. */
  lemma TimeLeqMicros(a: Time, b: Time)
    requires ValidTime(a) && ValidTime(b)
    ensures TimeLeq(a, b) <==> Micros(a) <= Micros(b)
  {
    var sa := (a.hour * 60 + a.minute) * 60 + a.second;
    var sb := (b.hour * 60 + b.minute) * 60 + b.second;
    var ma := a.hour * 60 + a.minute;
    var mb := b.hour * 60 + b.minute;
    assert (a.hour < b.hour) ==> ma < mb;
    assert (a.hour == b.hour && a.minute < b.minute) ==> ma < mb;
    assert ma < mb ==> sa < sb;
    assert sa < sb ==> Micros(a) < Micros(b);
    assert (ma == mb) <==> (a.hour == b.hour && a.minute == b.minute);
    assert (sa == sb) <==> (ma == mb && a.second == b.second);
  }

  /** A decoded timestamp: the date and wall-clock time as written. */
  datatype Timestamp = Timestamp(date: Date, time: Time)

  type Stamp = t: Timestamp | ValidDate(t.date) && ValidTime(t.time)
    witness Timestamp(Date(1, 1, 1), Time(0, 0, 0, 0))

  /** A working-hours window; both ends belong to it. */
  datatype Window = Window(start: Time, end: Time)

  /**
   * One `H:MM` end of a window: exactly two `:` fields, each an integer for
   * `int()`, hour 0..23 and minute 0..59 (the range `strptime("%H:%M")`
   * accepts after zero-padding).
   */
  function ParseClock(s: string): (r: Option<Time>)
    ensures r.Some? ==> ValidTime(r.value) && r.value.second == 0 && r.value.micro == 0
  {
    var fields := Split(s, ':');
    if |fields| != 2 then None
    else
      match (ParseInt(fields[0]), ParseInt(fields[1]))
      case (Some(h), Some(m)) =>
        if 0 <= h <= 23 && 0 <= m <= 59 then Some(Time(h, m, 0, 0)) else None
      case _ => None
  }

  /** `"H:MM-HH:MM"`: exactly two `-` fields, each a valid clock time. */
  function ParseWindow(w: string): (r: Option<Window>)
    ensures r.Some? ==> ValidTime(r.value.start) && ValidTime(r.value.end)
  {
    var halves := Split(w, '-');
    if |halves| != 2 then None
    else
      match (ParseClock(halves[0]), ParseClock(halves[1]))
      case (Some(a), Some(b)) => Some(Window(a, b))
      case _ => None
  }

  /**
   * `is_within_working_hours`: the timestamp's time of day lies between the
   * window's ends, both included, compared to the microsecond. An
   * unparseable timestamp or window gives false.
   */
  function IsWithinWorkingHours(ts: Option<Stamp>, w: string): (r: bool)
    ensures r ==> ts.Some? && ParseWindow(w).Some?
    ensures ts.Some? && ParseWindow(w).Some? ==>
      (r <==> Micros(ParseWindow(w).value.start) <= Micros(ts.value.time) <= Micros(ParseWindow(w).value.end))
  {
    match ts
    case None => false
    case Some(t) =>
      match ParseWindow(w)
      case None => false
      case Some(win) =>
        WindowMicros(t.time, win);
        TimeLeq(win.start, t.time) && TimeLeq(t.time, win.end)
  }

  /** The window text for start `h1:m1` and end `h2:m2`, minutes zero-padded. */
  function FormatWindow(h1: nat, m1: nat, h2: nat, m2: nat): string
    requires m1 < 100 && m2 < 100
  {
    FormatClock(h1, m1) + "-" + FormatClock(h2, m2)
  }

  function FormatClock(h: nat, m: nat): (r: string)
    requires m < 100
    ensures '-' !in r
  {
    ShowNat(h) + ":" + Pad2(m)
  }

  /** A formatted clock time reads back as itself, and only in range. */
  lemma ParseFormatClock(h: nat, m: nat)
    requires m < 100
    ensures ParseClock(FormatClock(h, m)) == if h <= 23 && m <= 59 then Some(Time(h, m, 0, 0)) else None
  {
    assert Split(FormatClock(h, m), ':') == [ShowNat(h), Pad2(m)] by {
      assert FormatClock(h, m) == ShowNat(h) + [':'] + Pad2(m);
      SplitTwo(ShowNat(h), Pad2(m), ':');
    }
    ParseShowNat(h);
    ParsePad2(m);
  }

  /** A formatted window reads back as its two clock times. */
  lemma ParseFormatWindow(h1: nat, m1: nat, h2: nat, m2: nat)
    requires h1 <= 23 && m1 <= 59 && h2 <= 23 && m2 <= 59
    ensures ParseWindow(FormatWindow(h1, m1, h2, m2)) == Some(Window(Time(h1, m1, 0, 0), Time(h2, m2, 0, 0)))
  {
    var a := FormatClock(h1, m1);
    var b := FormatClock(h2, m2);
    assert Split(FormatWindow(h1, m1, h2, m2), '-') == [a, b] by {
      assert FormatWindow(h1, m1, h2, m2) == a + ['-'] + b;
      SplitTwo(a, b, '-');
    }
    ParseFormatClock(h1, m1);
    ParseFormatClock(h2, m2);
  }

  /** Both window comparisons, read as microseconds since midnight. */
  lemma WindowMicros(t: Time, win: Window)
    requires ValidTime(t) && ValidTime(win.start) && ValidTime(win.end)
    ensures TimeLeq(win.start, t) && TimeLeq(t, win.end) <==> Micros(win.start) <= Micros(t) <= Micros(win.end)
  {
    TimeLeqMicros(win.start, t);
    TimeLeqMicros(t, win.end);
  }

  /**
   * For a window written `h:MM-h:MM` the test is exactly "start <= time of day
   * <= end" in microseconds since midnight: inclusive at both ends, and a
   * time even one microsecond past the end is outside.
   */
  lemma WithinWindowExactly(t: Stamp, h1: nat, m1: nat, h2: nat, m2: nat)
    requires h1 <= 23 && m1 <= 59 && h2 <= 23 && m2 <= 59
    ensures IsWithinWorkingHours(Some(t), FormatWindow(h1, m1, h2, m2))
        <==> (h1 * 60 + m1) * 60_000_000 <= Micros(t.time) <= (h2 * 60 + m2) * 60_000_000
  {
    ParseFormatWindow(h1, m1, h2, m2);
  }

  /** The default window "9:00-18:00" includes 09:00:00 and 18:00:00 but not 18:00:30. */
  lemma DefaultWindowBounds(t: Stamp)
    ensures t.time == Time(9, 0, 0, 0) ==> IsWithinWorkingHours(Some(t), "9:00-18:00")
    ensures t.time == Time(18, 0, 0, 0) ==> IsWithinWorkingHours(Some(t), "9:00-18:00")
    ensures t.time == Time(18, 0, 30, 0) ==> !IsWithinWorkingHours(Some(t), "9:00-18:00")
    ensures t.time == Time(8, 59, 59, 999_999) ==> !IsWithinWorkingHours(Some(t), "9:00-18:00")
  {
    assert FormatWindow(9, 0, 18, 0) == "9:00-18:00";
    WithinWindowExactly(t, 9, 0, 18, 0);
  }

  /** A window without exactly one `-` is malformed, so no timestamp is within it. */
  lemma WindowNeedsOneDash(ts: Option<Stamp>, w: string)
    requires Count(w, '-') != 1
    ensures ParseWindow(w) == None
    ensures !IsWithinWorkingHours(ts, w)
  {
    SplitCount(w, '-');
  }

  /** A clock time without exactly one `:` is malformed. */
  lemma ClockNeedsOneColon(s: string)
    requires Count(s, ':') != 1
    ensures ParseClock(s) == None
  {
    SplitCount(s, ':');
  }

  /** A window whose start is later than its end holds no time of day. */
  lemma InvertedWindowIsEmpty(ts: Option<Stamp>, w: string)
    requires ParseWindow(w).Some? && !TimeLeq(ParseWindow(w).value.start, ParseWindow(w).value.end)
    ensures !IsWithinWorkingHours(ts, w)
  {
    if ts.Some? {
      var win := ParseWindow(w).value;
      var t := ts.value.time;
      TimeLeqMicros(win.start, t);
      TimeLeqMicros(t, win.end);
      TimeLeqMicros(win.start, win.end);
    }
  }

  /** `is_working_day`: the timestamp's weekday name is one of `days`; false when unparseable. */
  function IsWorkingDay(ts: Option<Stamp>, days: set<string>): (r: bool)
    ensures r ==> ts.Some?
  {
    ts.Some? && DayName(ts.value.date) in days
  }

  /** Monday to Friday are exactly the weekdays numbered 0 to 4. */
  lemma MondayToFridayWeekdays(t: Stamp)
    ensures IsWorkingDay(Some(t), MondayToFriday) <==> Weekday(t.date) < 5
  {
    var w := Weekday(t.date);
    assert w == 0 || w == 1 || w == 2 || w == 3 || w == 4 || w == 5 || w == 6;
  }

  /** `get_year_from_timestamp`: the year as written, or None when unparseable. */
  function YearOf(ts: Option<Stamp>): (r: Option<int>)
    ensures r.Some? <==> ts.Some?
    ensures r.Some? ==> MinYear <= r.value <= MaxYear && r.value == ts.value.date.year
  {
    match ts
    case None => None
    case Some(t) => Some(t.date.year)
  }

  const Degree: char := '\U{00B0}'

  /**
   * `parse_latlng`: drop every degree sign, split on `,`, strip the first
   * two fields and read each as a float; fewer than two fields or an
   * unreadable one gives None. The float reader is a parameter.
   */
  function ParseLatLng(s: string, parseFloat: string -> Option<real>): Option<(real, real)>
  {
    var parts := Split(RemoveAll(s, Degree), ',');
    if |parts| < 2 then
      None
    else
      match (parseFloat(Strip(parts[0])), parseFloat(Strip(parts[1])))
      case (Some(lat), Some(lng)) => Some((lat, lng))
      case _ => None
  }

  /** Without a comma there is one field only: "52.52" and "" both fail. */
  lemma LatLngNeedsTwoFields(s: string, parseFloat: string -> Option<real>)
    requires ',' !in s
    ensures ParseLatLng(s, parseFloat) == None
  {
    var t := RemoveAll(s, Degree);
    assert multiset(t)[','] == multiset(s)[','] == 0;
    SplitCount(t, ',');
  }

  /** Fields after the second are ignored, not rejected. */
  lemma LatLngIgnoresExtraFields(s: string, rest: string, parseFloat: string -> Option<real>)
    requires ',' in s
    ensures ParseLatLng(s + "," + rest, parseFloat) == ParseLatLng(s, parseFloat)
  {
    var a := RemoveAll(s, Degree);
    var b := RemoveAll(rest, Degree);
    assert RemoveAll(s + "," + rest, Degree) == a + [','] + b by {
      RemoveAllChar(',', Degree);
      RemoveAllAppend(s, ",", Degree);
      RemoveAllAppend(s + ",", rest, Degree);
    }
    SplitAround(a, b, ',');
    assert |Split(a, ',')| >= 2 by {
      assert multiset(a)[','] == multiset(s)[','] > 0;
      SplitCount(a, ',');
    }
  }

  /** `"<lat>°, <lng>°"` reads as the two fields, stripped, each given to the float reader. */
  lemma LatLngFields(lat: string, lng: string, parseFloat: string -> Option<real>)
    requires ',' !in lat && ',' !in lng && Degree !in lat && Degree !in lng
    ensures var r := ParseLatLng(lat + [Degree] + "," + lng + [Degree], parseFloat);
            var a := parseFloat(Strip(lat));
            var b := parseFloat(Strip(lng));
            r == if a.Some? && b.Some? then Some((a.value, b.value)) else None
  {
    var s := lat + [Degree] + "," + lng + [Degree];
    DropDegrees(lat, lng);
    SplitTwo(lat, lng, ',');
  }

  lemma DropDegrees(lat: string, lng: string)
    requires Degree !in lat && Degree !in lng
    ensures RemoveAll(lat + [Degree] + "," + lng + [Degree], Degree) == lat + [','] + lng
  {
    var d: string := [Degree];
    var p := lat + d;
    var q := p + ",";
    var r := q + lng;
    assert RemoveAll(p, Degree) == lat by {
      RemoveAllFree(lat, Degree);
      RemoveAllChar(Degree, Degree);
      RemoveAllAppend(lat, d, Degree);
    }
    assert RemoveAll(q, Degree) == lat + "," by {
      RemoveAllChar(',', Degree);
      RemoveAllAppend(p, ",", Degree);
    }
    assert RemoveAll(r, Degree) == lat + "," + lng by {
      RemoveAllFree(lng, Degree);
      RemoveAllAppend(q, lng, Degree);
    }
    assert RemoveAll(r + d, Degree) == lat + "," + lng by {
      RemoveAllChar(Degree, Degree);
      RemoveAllAppend(r, d, Degree);
    }
    assert lat + [Degree] + "," + lng + [Degree] == r + d;
  }
}

=== FILE: wrappers.dfy ===
/** The optional-value type used for every "return None instead of raising" path. */
module Wrappers {

  datatype Option<+T> = None | Some(value: T)
}
